=== FILE: README.md ===
# device-api core in Dafny

A model of the core of `device-api`. This is a small HTTP service that keeps a catalogue of devices in MongoDB. Each device has:

- an id;
- a name of at most 100 characters;
- a brand of at most 50 characters;
- a state, one of `available`, `in-use` or `inactive`;
- a creation timestamp.

The model covers the following, one module per concern:

| module | file | what it models |
|---|---|---|
| `Values` | `values.dfy` | The value objects. This is the `ValueObject` check chain: defined, then runtime type, then class-specific validity. It also covers `equals`, `toString`, the string and enum families, `DeviceState` and `DeviceId`. |
| `DeviceEntity` | `device.dfy` | The `Device` entity: its constructor, `fromPrimitives`, `toPrimitives`, `updateFields` and `canBeDeleted`. |
| `DocumentSchema` | `document.dfy` | The mongoose schema: casting (`trim`, the state default), the path validators, the pre-save hook, and the document's `toPrimitives`/`fromPrimitives`. |
| `CollectionValidator` | `collection.dfy` | The `$jsonSchema` validator and the unique index that `docker/init-mongo.js` creates. |
| `Repository` | `repository.dfy` | `DeviceRepository` over an abstract store. The store is a map from domain id to document, plus the natural order in which `find()` returns documents. |
| `Services` | `services.dfy` | The five application services: list with filters, get by id, create, update and delete. |
| `Errors` | `errors.dfy` | `CustomError` and the error classes the core throws, including their cause chains. |
| `ErrorStatus` | `error_status.dfy` | `CustomErrorMiddleware`: `wasErrorCausedBy` and the choice among 400, 404 and 500. |
| `Redaction` | `redaction.dfy` | `sanitizeHeaders` and `sanitizeRequestBody` of the request logger. |
| `DbConfig` | `dbconfig.dfy` | `getDefaultDatabaseConfig`, including `encodeURIComponent`. |

Supporting modules:

- `Wrappers` holds `Option` and `Result`.
- `Text` gives JavaScript's string operations: `trim`, ASCII lower-casing, `includes` and UTF-16 `length`.
- `JsValues` gives JavaScript values: truthiness, `String(v)` and `typeof … === 'object'`.

The model turns its external inputs into explicit parameters:

- **Throwing.** An operation that throws in the source returns `Err` of the thrown value.
- **Database.** An operation that writes returns the store it leaves behind, in a `Step`.
- **Randomness and the clock.** `randomUUID()` and the clock become parameters. Each construction of an entity takes a `Fresh(uuid, now)`. `getAll` takes one draw per document (`nat -> Fresh`). `new DeviceId("")` takes the `uuid` it would generate.
- **`DeviceName` and `DeviceBrand`.** These classes are not part of this model. Their validity checks are a parameter, `Rules`, which maps a string to the message of the `ValidationDomainError` it throws, if any.
- **Environment.** `process.env` is a `map<string, string>`.

Where the repository's written design and its code disagree, the model follows the code. There are two such places:

- **`updateFields` on an in-use device.** The design lets an in-use device still change its state. The code refuses every update of an in-use device, state included (`DeviceEntity.InUseBlocksEveryUpdate`).
- **`fromPrimitives` with an id or createdAt.** The design has `fromPrimitives` keep a supplied id and createdAt. The code always draws new ones (`DeviceEntity.FromPrimitivesIgnoresIdAndCreatedAt`).

## Model

Every path below is relative to the repository root.

| member | source | states |
|---|---|---|
| Values.NewValueObject | src/shared/domain/model/ValueObject.ts:7-34 | A nullish value fails with `UndefinedDomainValueError`. A defined value of the wrong runtime type fails with `DomainValueTypeError` carrying the value as context. Otherwise the class's validity check decides. On success the object holds exactly the given value. |
| Values.CheckChainOrder | src/shared/domain/model/ValueObject.ts:7-27 | The class of the error tells exactly which check failed. Each check is reached only when the earlier ones pass. |
| Values.DefaultValidityAcceptsAll | src/shared/domain/model/ValueObject.ts:32-34 | A class without a validity override, such as `DeviceId`, accepts every defined string. |
| Values.CheckState | src/application/device/model/entities/value_objects/DeviceState.ts:7-12 | A state is valid iff it is a string among the three states. Otherwise the `ValidationDomainError` names the value. |
| Values.StateAcceptsExactly | src/application/device/model/entities/value_objects/DeviceState.ts:4-12 | A `DeviceState` can be built from exactly the three state strings, compared case-sensitively, and from nothing else. |
| Values.NumericStateRejectedAsInvalid | src/application/device/model/entities/value_objects/DeviceState.ts:7-12 | A number passes the enum family's type check, but it fails validity with the message `State: <n> is not valid.` |
| Values.ToString | src/shared/domain/model/ValueObject.ts:43-45 | `toString` renders the held value with `String()`. Stated by `Values.StringRoundTrip` (a string comes back unchanged). |
| Values.Equals | src/shared/domain/model/ValueObject.ts:36-41 | `equals` compares the concrete class name and the rendered values. Stated by `Values.EqualsIsEquivalence`, `Values.EqualsOnStrings` and `Values.EqualsIsNotValueEquality`. |
| Values.StringRoundTrip | src/shared/domain/model/ValueObject.ts:43-45 | `toString` of a value object built from a string gives that string back. |
| Values.EqualsIsEquivalence | src/shared/domain/model/ValueObject.ts:36-41 | `equals` is reflexive, symmetric and transitive. |
| Values.EqualsIsNotValueEquality | src/shared/domain/model/ValueObject.ts:36-41 | `equals` compares renderings: an enum object holding the number 1 equals one holding the string "1". |
| Values.EqualsOnStrings | src/shared/domain/model/ValueObject.ts:36-41 | For string-valued objects that were built successfully, `equals` holds iff the classes and the strings are the same. |
| Values.NewDeviceId | src/application/device/model/entities/value_objects/DeviceId.ts:5-11 | A truthy string is kept as the id. A truthy non-string fails the type check. A falsy argument is replaced by the generated uuid. |
| Values.DeviceIdsFromSameString | src/application/device/model/entities/value_objects/DeviceId.ts:5-11 | Two ids built from the same non-empty string are equal and render as that string, whatever uuids were generated. |
| Values.EmptyDeviceIdIsGenerated | src/application/device/model/entities/value_objects/DeviceId.ts:5-11 | Both `""` and `undefined` yield the generated uuid. |
| Errors.NewCustomError | src/shared/domain/model/errors/CustomError.ts:6-21 | The message, cause and context are kept as given. The name is the option when one is given, else the class name. |
| Errors.ToPrimitives | src/shared/domain/model/errors/CustomError.ts:23-29 | The serialised error has `name` first and `message` second. It has a `context` key iff the context is truthy, and no other key. |
| Errors.SerialisedError | src/shared/domain/model/errors/CustomError.ts:6-29 | Serialising a newly built error shows the constructor's message and name choice. Its context appears iff truthy. |
| DeviceEntity.NewDevice | src/application/device/model/entities/Device.ts:20-27 | A new device always gets a freshly generated id and the current time as createdAt. |
| DeviceEntity.ToPrimitives | src/application/device/model/entities/Device.ts:29-37 | `toPrimitives` renders each value object with `toString`: a field holding a string renders as that string, and createdAt is copied. `DeviceEntity.PrimitivesRoundTrip` and `Repository.DocumentToDevice` state the round trip: the stored strings come back unchanged, with the drawn id and createdAt. |
| DeviceEntity.FromPrimitives | src/application/device/model/entities/Device.ts:54-70 | The call fails with the missing-fields `ValidationDomainError` unless name, brand and state are all truthy. It succeeds iff each of the three value objects can be built. A device it returns is well formed and holds exactly the given values under a fresh id and createdAt. |
| DeviceEntity.FromPrimitivesIgnoresIdAndCreatedAt | src/application/device/model/entities/Device.ts:54-70 | The supplied id and createdAt never affect the outcome. |
| DeviceEntity.AcceptedRecords | src/application/device/model/entities/Device.ts:54-70 | A string record is accepted iff name and brand are non-empty and pass their checks and the state is one of the three. |
| DeviceEntity.PrimitivesRoundTrip | src/application/device/model/entities/Device.ts:29-37 | `toPrimitives(fromPrimitives(p))` keeps `p`'s name, brand and state, and carries the newly drawn id and createdAt. |
| DeviceEntity.Assign | src/application/device/model/entities/Device.ts:43-51 | One `if` of `updateFields`. A falsy value changes nothing. A truthy one replaces only its own field, and only when its value object builds; otherwise that object's error is thrown. |
| DeviceEntity.UpdateFields | src/application/device/model/entities/Device.ts:39-52 | An in-use device is refused with the in-use `ValidationDomainError` and left as it was. The id and createdAt never change. A field whose patch value is falsy is kept. |
| DeviceEntity.UpdateFailsIff | src/application/device/model/entities/Device.ts:39-52 | The update throws iff the device is in use or some truthy patch field cannot be built. |
| DeviceEntity.SuccessfulUpdateApplies | src/application/device/model/entities/Device.ts:43-51 | After a successful update every truthy patch field is the device's value. A non-empty string renders back unchanged. |
| DeviceEntity.FailedUpdateKeepsEarlierFields | src/application/device/model/entities/Device.ts:43-51 | There is no roll-back. When the state is rejected, the brand assigned before it stays and the name is never reached. |
| DeviceEntity.UpdatePreservesWellFormed | src/application/device/model/entities/Device.ts:39-52 | Whatever the outcome, the device stays well formed: every field is one its value object accepts. |
| DeviceEntity.InUseBlocksEveryUpdate | src/application/device/model/entities/Device.ts:40-42 | An in-use device is not changed by any patch, not even a state change, and the error is a validation error. |
| DeviceEntity.CanBeDeleted | src/application/device/DeleteDevicesService.ts:26-35 | The deletion guard is false exactly for a device in use. Stated by `DeviceEntity.CanBeDeletedByState`; the definition itself is assumed, see "## Left out". |
| DeviceEntity.CanBeDeletedByState | src/application/device/DeleteDevicesService.ts:26-35 | A well-formed device cannot be deleted iff its state renders as `in-use`. |
| Text.TrimIdentityIff | src/application/infrastructure/adapters/model/Device.ts:24-35 | `trim` leaves a string unchanged iff it neither starts nor ends with white space. |
| Text.TrimRemovesPadding | src/application/infrastructure/adapters/model/Device.ts:24-35 | White space padded onto both sides of a trimmed string is exactly what `trim` removes. |
| Text.CodePointsAtMostUtf16 | src/application/infrastructure/adapters/model/Device.ts:24-35 | The UTF-16 length that `maxlength` counts is never below the code-point count. |
| DocumentSchema.Cast | src/application/infrastructure/adapters/model/Device.ts:16-54 | Casting keeps id and createdAt, trims name and brand, and defaults a missing state to `available`. |
| DocumentSchema.SchemaAccepts | src/application/infrastructure/adapters/model/Device.ts:16-54 | The path validators: all five paths required and non-empty, name and brand within their UTF-16 maxlength, state in the enum. Stated by `DocumentSchema.Validate` (accepted iff the cast draft passes) and `DocumentSchema.PaddingIsNotCounted`. |
| DocumentSchema.PreSaveAccepts | src/application/infrastructure/adapters/model/Device.ts:66-79 | The pre-save hook refuses an empty id or createdAt. Stated by `DocumentSchema.SchemaSubsumesPreSave` (a validated document always passes it). |
| DocumentSchema.Validate | src/application/infrastructure/adapters/model/Device.ts:16-54 | A draft is accepted iff the cast draft passes every path validator. An accepted document is the cast draft. Its name and brand are non-empty, trimmed and within the UTF-16 bounds, and its state is in the enum. A refusal is a schema validation error. |
| DocumentSchema.SchemaSubsumesPreSave | src/application/infrastructure/adapters/model/Device.ts:67-79 | Every document that passes validation also passes the pre-save hook. |
| DocumentSchema.MissingStateDefaults | src/application/infrastructure/adapters/model/Device.ts:36-41 | A draft without a state is stored as `available`. |
| DocumentSchema.PaddingIsNotCounted | src/application/infrastructure/adapters/model/Device.ts:24-29 | The length bound applies to the trimmed name, so padding never makes a name too long. |
| DocumentSchema.DocToPrimitives | src/application/infrastructure/adapters/model/Device.ts:81-90 | The instance `toPrimitives` copies the five fields. Stated by `DocumentSchema.DocRoundTripIff` and `DocumentSchema.StoredDocRoundTrip`. |
| DocumentSchema.DocFromPrimitives | src/application/infrastructure/adapters/model/Device.ts:92-103 | The static `fromPrimitives` builds a document, which casts (trims) but does not validate. Stated by `DocumentSchema.DocRoundTripIff` and `DocumentSchema.StoredDocRoundTrip`. |
| DocumentSchema.DocRoundTripIff | src/application/infrastructure/adapters/model/Device.ts:82-103 | Mapping primitives to a document and back through the schema's trim gives the same primitives, and the same draft, iff name and brand are already trimmed. This is `Text.TrimIdentityIff` carried through the document mapping. |
| DocumentSchema.StoredDocRoundTrip | src/application/infrastructure/adapters/model/Device.ts:82-103 | A stored document mapped to primitives and back is the same draft. |
| CollectionValidator.Accepts | docker/init-mongo.js:10-45 | The collection's `$jsonSchema`: five required string fields, name and brand bounded in code points, state in the enum, extra fields allowed. Stated by `CollectionValidator.AcceptsStringDoc`, `CollectionValidator.RequiresAllFive`, `CollectionValidator.RequiresStrings` and `CollectionValidator.SchemaImpliesCollection`. |
| CollectionValidator.AcceptsStringDoc | docker/init-mongo.js:10-45 | On a document of five strings, the validator checks exactly the name length (at most 100 code points), the brand length (at most 50) and the state enum. |
| CollectionValidator.RequiresAllFive | docker/init-mongo.js:14 | A document missing any of the five fields is refused. |
| CollectionValidator.RequiresStrings | docker/init-mongo.js:16-42 | A field of any type other than string is refused. |
| CollectionValidator.SchemaImpliesCollection | docker/init-mongo.js:10-45 | Every document the mongoose schema accepts also passes the collection validator. |
| CollectionValidator.CollectionLaxerThanSchema | docker/init-mongo.js:10-45 | The converse fails: the collection takes an empty id and an untrimmed name. |
| CollectionValidator.DuplicateIdRefused | docker/init-mongo.js:48 | An insert whose id is already stored is refused. |
| CollectionValidator.InsertKeepsIdsUnique | docker/init-mongo.js:48 | An accepted insert keeps the ids unique. |
| Repository.DocumentToDevice | src/application/infrastructure/adapters/DeviceRepository.ts:93-96 | Rebuilding a document succeeds iff name and brand are non-empty and pass their checks and the state is valid. The entity keeps the stored name, brand and state, but has the newly drawn id and createdAt. |
| Repository.Restore | src/application/infrastructure/adapters/DeviceRepository.ts:93-96 | The corrected rebuild renders exactly the stored record. It succeeds iff the rebuild as written succeeds under every draw. |
| Repository.Rebuild | src/application/infrastructure/adapters/DeviceRepository.ts:17-26 | Mapping documents to entities succeeds iff every document rebuilds. Each result is that document's rebuild, in order. On failure the error is one of the documents' errors. |
| Repository.GetAll | src/application/infrastructure/adapters/DeviceRepository.ts:17-26 | `getAll` succeeds iff every stored document, taken in natural order with its own draw, passes `documentToDevice`. On success there is one entity per stored document, in natural order. Each has its document's name, brand and state and its own draw's id and createdAt. |
| Repository.RebuildsIff | src/application/infrastructure/adapters/DeviceRepository.ts:17-26 | Rebuilding the stored documents succeeds iff each document, with the draw for its position, passes `documentToDevice`. |
| Repository.FindById | src/application/infrastructure/adapters/DeviceRepository.ts:28-43 | An id that is not stored gives `DeviceNotFoundError` with the message `Device with id <id> doesn't exist`. Otherwise the result is that document's rebuild. |
| Repository.StoredForm | src/application/infrastructure/adapters/DeviceRepository.ts:45-55 | The document a device is saved as is its primitives with name and brand trimmed. It passes the pre-save hook and the collection validator. |
| Repository.Insert | src/application/infrastructure/adapters/DeviceRepository.ts:45-55 | A successful `deviceDoc.save()` appends the document. The store stays valid (the unique index and the collection validator still hold), and the new id goes last in the natural order. |
| Repository.Replace | src/application/infrastructure/adapters/DeviceRepository.ts:57-76 | A successful `findOneAndUpdate` replaces the document under its own id in place. The store stays valid and the natural order is unchanged. |
| Repository.Save | src/application/infrastructure/adapters/DeviceRepository.ts:45-55 | The store stays valid. Save succeeds iff the document validates and its id is new. A validating document with a taken id gives a duplicate-key error. On success the trimmed document is appended under its id. On failure the store is unchanged. |
| Repository.Update | src/application/infrastructure/adapters/DeviceRepository.ts:57-76 | The store stays valid and its order is kept. Update succeeds iff the document validates and its id is stored. A validating document whose id is not stored gives `DeviceNotFoundError` naming that id. On success exactly that document is replaced. |
| Repository.Delete | src/application/infrastructure/adapters/DeviceRepository.ts:78-91 | The store stays valid. Delete succeeds iff the id is stored. Then exactly that document is removed, and the remaining ids keep their natural order. Otherwise it gives `DeviceNotFoundError` and the store is unchanged. |
| Repository.FindAfterSave | src/application/infrastructure/adapters/DeviceRepository.ts:28-55 | A saved device with trimmed, valid fields is found again under its id, with its name, brand and state. |
| Repository.FindAfterDelete | src/application/infrastructure/adapters/DeviceRepository.ts:28-91 | After a successful delete, finding the id reports not-found. |
| Repository.UpdateAfterSave | src/application/infrastructure/adapters/DeviceRepository.ts:45-76 | Updating with a valid device that has the id of a just-saved one succeeds. |
| Services.Select | src/application/device/GetDevicesService.ts:33-41 | The filter then render step yields exactly the renderings of the devices that pass every filter, and no more of them than there are devices. |
| Services.GetDevices | src/application/device/GetDevicesService.ts:31-50 | The listing succeeds iff every stored document, with the draw for its position, passes `documentToDevice`. `total` is then the number of devices listed, which is at most the number stored. |
| Services.SelectRebuilt | src/application/device/GetDevicesService.ts:33-41 | Filtering the rebuilt entities equals the reference listing read straight off the documents. |
| Services.ListingIsFilteredStore | src/application/device/GetDevicesService.ts:31-50 | The listing is exactly the stored documents that match every non-empty filter, in natural order, none missing and none added. |
| Services.SelectKeepsOrder | src/application/device/GetDevicesService.ts:33-41 | Filtering distributes over concatenation, so the store's order is kept. |
| Services.UnfilteredSelectsAll | src/application/device/GetDevicesService.ts:35-37 | Absent or empty filters list every device, in order. |
| Services.KeyOf | src/application/device/GetDeviceByIdService.ts:22 | The requested id stands for itself when non-empty, else for the generated uuid. |
| Services.GetDeviceById | src/application/device/GetDeviceByIdService.ts:22-29 | An unknown id gives not-found. Get succeeds iff the document is stored and rebuilds. It then reports the stored name, brand and state with the drawn id and createdAt. |
| Services.CreateDevice | src/application/device/CreateDevicesService.ts:23-30 | Create succeeds iff all of these hold: the body builds an entity, that entity's document validates, and its new id is not yet stored. The response is then that entity's primitives. Missing fields give the missing-fields validation error, and any failure leaves the store unchanged. On success the body's name, brand and state are the response's, and they are valid. The response carries the new id and createdAt, and the trimmed document is appended under the new id. |
| Services.BlankNameFailsAtStore | src/application/device/CreateDevicesService.ts:23-24 | A name of blanks passes the entity's truthiness check. The schema trims it to nothing, so the create fails with a schema validation error. |
| Services.UpdateDevice | src/application/device/UpdateDevicesService.ts:28-42 | An unknown id gives not-found, and an in-use device gives the in-use validation error. The update succeeds iff all of these hold: the device rebuilds, the patch applies, the result validates, and the rebuild's drawn id is stored. When only that last condition fails, it gives not-found naming the drawn id. On success the response is the rebuilt device with the patch applied by `updateFields`. |
| Services.UpdateOfStoredDeviceMisses | src/application/device/UpdateDevicesService.ts:28-36 | Updating a stored device fails and leaves the store unchanged whenever the id its rebuild draws is not itself stored. |
| Services.UpdateDeviceKeepingIdentity | src/application/device/UpdateDevicesService.ts:28-42 | The corrected update succeeds iff the device is stored, rebuilds, takes the patch and still validates. The response is then the restored device with the patch applied by `updateFields`. The update rewrites exactly that document, keeping its id, createdAt and place in the order. |
| Services.KeptIdentityUpdateApplies | src/application/device/UpdateDevicesService.ts:28-42 | After a successful corrected update, each truthy patch field is the response's value for that field. Every other field is the stored document's. |
| Services.GetReportsRebuiltIdentity | src/application/device/GetDeviceByIdService.ts:22-29 | Get by id reports the stored name, brand and state, but the rebuild's id and createdAt instead of the stored ones. |
| Services.GetDeviceByIdKeepingIdentity | src/application/device/GetDeviceByIdService.ts:22-29 | The corrected get succeeds iff the device is stored and rebuilds. It then reports the stored record exactly. |
| Services.CreateThenGet | src/test/DeviceController.e2e.test.ts:154-159 | A device created with trimmed name and brand is found again under the id the creation reported, with the same name, brand and state. |
| Services.DeleteDevice | src/application/device/DeleteDevicesService.ts:23-35 | An unknown id gives not-found, and an in-use device gives the cannot-delete validation error. Delete succeeds iff the device is stored, rebuilds and is not in use. It then removes exactly that document, and the remaining ids keep their natural order. Any failure leaves the store unchanged. |
| ErrorStatus.WasErrorCausedBy | src/shared/infrastructure/server/express/CustomErrorMiddleware.ts:37-48 | `wasErrorCausedBy` walks the `cause` chain while the values are `CustomError`s. Stated by `ErrorStatus.CausedByIffInChain`, `ErrorStatus.CauseIndex` and `ErrorStatus.CausedAt` (it holds iff some error of the leading `CustomError` run is an instance of the target). |
| ErrorStatus.CausedByIffInChain | src/shared/infrastructure/server/express/CustomErrorMiddleware.ts:37-48 | `wasErrorCausedBy` holds iff some error in the leading run of `CustomError`s on the cause chain is an instance of the target class. |
| ErrorStatus.CauseIndex | src/shared/infrastructure/server/express/CustomErrorMiddleware.ts:37-48 | When `wasErrorCausedBy` holds, an index into the leading `CustomError` run is returned at which the class is an instance of the target. |
| ErrorStatus.CausedAt | src/shared/infrastructure/server/express/CustomErrorMiddleware.ts:37-48 | An instance of the target at any position of the leading `CustomError` run makes `wasErrorCausedBy` hold. |
| ErrorStatus.Status | src/shared/infrastructure/server/express/CustomErrorMiddleware.ts:24-34 | The status is 400 iff a validation error is on the chain. It is 404 iff there is no validation error but a not-found error. Otherwise it is 500. |
| ErrorStatus.ValidationTakesPrecedence | src/shared/infrastructure/server/express/CustomErrorMiddleware.ts:24-28 | A `DeviceNotFoundError` caused by a validation error is answered with 400. |
| ErrorStatus.PlainErrorHidesItsCause | src/shared/infrastructure/server/express/CustomErrorMiddleware.ts:41-47 | A non-`CustomError` ends the walk: a plain error caused by a validation error is a 500. |
| ErrorStatus.WrappingKeepsStatus | src/shared/infrastructure/server/express/CustomErrorMiddleware.ts:37-48 | Wrapping a `CustomError` in a bare `CustomError` keeps its status. |
| ErrorStatus.InvalidDateIsBadRequest | src/shared/domain/model/errors/InvalidDateValueError.ts:3-6 | `InvalidDateValueError` is answered with 400. |
| ErrorStatus.ValueErrorsAreServerErrors | src/shared/domain/model/ValueObject.ts:14-27 | An undefined value or a type mismatch in a value object is answered with 500. |
| ErrorStatus.StoreErrorsAreServerErrors | src/shared/infrastructure/server/express/CustomErrorMiddleware.ts:30-33 | Mongoose validation, hook, collection-validator and duplicate-key errors are answered with 500. |
| ErrorStatus.DeviceNotFoundIsNotFound | src/application/infrastructure/adapters/DeviceRepository.ts:33-37 | The repository's not-found error is answered with 404. |
| ErrorStatus.UnknownIdIsNotFound | src/application/device/GetDeviceByIdService.ts:22-23 | Getting an id that is not stored is answered with 404. |
| ErrorStatus.IncompleteCreateIsBadRequest | src/test/DeviceController.e2e.test.ts:178-184 | A create body lacking a name, brand or state is answered with 400. |
| ErrorStatus.DeleteInUseIsBadRequest | src/application/device/DeleteDevicesService.ts:26-35 | Deleting a stored in-use device is answered with 400. |
| ErrorStatus.UpdateOfStoredDeviceIsNotFound | src/application/infrastructure/adapters/DeviceRepository.ts:62-72 | An update of a stored, usable device with a valid patch is answered with 404 when the id its rebuild draws is not stored. |
| Redaction.RedactHeaders | src/shared/infrastructure/server/express/RequestLoggingMiddleware.ts:110-118 | The header names are kept. A header is the mask iff it is among the names and truthy; every other header is unchanged. |
| Redaction.SanitizeHeaders | src/shared/infrastructure/server/express/RequestLoggingMiddleware.ts:101-119 | `sanitizeHeaders` keeps every header name. Stated by `Redaction.HeadersMaskedExactly` (masked iff among the four names and truthy, others passed through) and `Redaction.HeadersIdempotent`. |
| Redaction.HeadersMaskedExactly | src/shared/infrastructure/server/express/RequestLoggingMiddleware.ts:101-119 | A header reads `[REDACTED]` iff it is a truthy sensitive header or already held the mask. Non-sensitive headers pass through. |
| Redaction.HeadersIdempotent | src/shared/infrastructure/server/express/RequestLoggingMiddleware.ts:101-119 | Sanitising headers twice masks nothing more. |
| Redaction.IndexKeysNotSensitive | src/shared/infrastructure/server/express/RequestLoggingMiddleware.ts:144-148 | An array index key never contains a sensitive word. |
| Redaction.SanitizeEntry | src/shared/infrastructure/server/express/RequestLoggingMiddleware.ts:144-157 | A sensitive key gets the mask. A non-sensitive key with a non-object value keeps it. A non-sensitive key holding an object gets that object sanitised in turn; `Redaction.EntryAgrees` states this. |
| Redaction.SanitizeObject | src/shared/infrastructure/server/express/RequestLoggingMiddleware.ts:136-161 | A non-object is returned as is. An array stays an array of the same length, and an object keeps its keys in order. `Redaction.SanitizedAgrees` states the same at every depth. |
| Redaction.SanitizedIsClean | src/shared/infrastructure/server/express/RequestLoggingMiddleware.ts:136-161 | At every depth of the result, each sensitive key holds the mask. |
| Redaction.FixedIffClean | src/shared/infrastructure/server/express/RequestLoggingMiddleware.ts:136-161 | Sanitising leaves a value unchanged iff it is already clean. |
| Redaction.SanitizedAgrees | src/shared/infrastructure/server/express/RequestLoggingMiddleware.ts:136-161 | At every depth the result agrees with the input, as the reference relation `Agrees` defines it. Arrays stay arrays of the same length, and objects keep their keys in order. Each sensitive key holds the mask. Each non-sensitive object is sanitised in turn, and every other value is kept. |
| Redaction.EntryAgrees | src/shared/infrastructure/server/express/RequestLoggingMiddleware.ts:144-157 | One property's sanitised value agrees with its input: the mask for a sensitive key, the recursively sanitised object for a non-sensitive object, otherwise the value itself. |
| Redaction.AgreesOnlySanitized | src/shared/infrastructure/server/express/RequestLoggingMiddleware.ts:136-161 | A value that agrees with the input in that sense is the sanitised value, so the relation pins the output down completely. |
| Redaction.AgreesEntryOnly | src/shared/infrastructure/server/express/RequestLoggingMiddleware.ts:144-157 | The same uniqueness for one property's value. |
| Redaction.BodyIdempotent | src/shared/infrastructure/server/express/RequestLoggingMiddleware.ts:136-161 | Sanitising twice masks nothing more. |
| Redaction.ArrayElementsKept | src/shared/infrastructure/server/express/RequestLoggingMiddleware.ts:142-157 | A non-object array element is never masked. |
| Redaction.Spread | src/shared/infrastructure/server/express/RequestLoggingMiddleware.ts:134 | Spreading an object keeps its properties. Spreading an array gives one property per element, keyed by index. |
| Redaction.SanitizeRequestBody | src/shared/infrastructure/server/express/RequestLoggingMiddleware.ts:121-164 | A non-object body is returned as is. An object or array body always comes back as a plain object, which `Redaction.RequestBodyAgrees` relates to the spread body key by key. |
| Redaction.ArrayBodyBecomesObject | src/shared/infrastructure/server/express/RequestLoggingMiddleware.ts:134 | The body `[7]` is logged as `{"0": 7}` as written, and as `[7]` by the corrected version. |
| Redaction.SanitizeRequestBodyKeepingArrays | src/shared/infrastructure/server/express/RequestLoggingMiddleware.ts:121-164 | The corrected sanitiser returns a non-object unchanged. It keeps an array an array of the same length, and agrees with the original on objects. |
| Redaction.RequestBodyAgrees | src/shared/infrastructure/server/express/RequestLoggingMiddleware.ts:121-164 | For an object or array body, the logged body agrees at every depth with the spread body: same keys in order, exactly the sensitive values masked, everything else kept. The corrected version agrees in the same way with the body itself. |
| DbConfig.Lookup | src/shared/infrastructure/db/mongo/MongoDbClient.ts:114-120 | A variable counts as set iff it is present and non-empty, as `||` reads it. |
| DbConfig.EncodeURIComponent | src/shared/infrastructure/db/mongo/MongoDbClient.ts:126 | The output consists only of unreserved characters, `%` and upper-case hex digits, and is never shorter than the input. It equals the input when every character is unreserved, and is strictly longer otherwise. `DbConfig.DecodeInvertsEncode` states that the escapes are the characters' UTF-8 bytes. |
| DbConfig.HexDigit | src/shared/infrastructure/db/mongo/MongoDbClient.ts:126 | A digit below 16 is written as an upper-case hex digit whose value is that digit. |
| DbConfig.Utf8 | src/shared/infrastructure/db/mongo/MongoDbClient.ts:126 | A character becomes one to four bytes below 256. A single byte is used exactly for ASCII. The lead byte announces the sequence length, and the bytes decode back to the code point. |
| DbConfig.Escape | src/shared/infrastructure/db/mongo/MongoDbClient.ts:126 | Each byte becomes `%` plus two hex digits, and reading the escapes back gives the bytes. |
| DbConfig.UnescapePrefix | src/shared/infrastructure/db/mongo/MongoDbClient.ts:126 | The first `j` escapes of an escaped run read back as its first `j` bytes, whatever follows the run. |
| DbConfig.DecodeEncodedChar | src/shared/infrastructure/db/mongo/MongoDbClient.ts:126 | An escaped character's first escape announces how many escapes follow. Reading those gives its UTF-8 bytes, and the rest of the string follows them. |
| DbConfig.DecodeStep | src/shared/infrastructure/db/mongo/MongoDbClient.ts:126 | Decoding an encoded character followed by decodable text gives that character's code point followed by the text's decoding. |
| DbConfig.DecodeInvertsEncode | src/shared/infrastructure/db/mongo/MongoDbClient.ts:126 | Decoding the encoded string gives back the code points of the original, for every string. |
| DbConfig.EncodeInjective | src/shared/infrastructure/db/mongo/MongoDbClient.ts:126 | Two strings with the same encoding are equal. |
| DbConfig.EncodeIdentityIff | src/shared/infrastructure/db/mongo/MongoDbClient.ts:126 | Encoding changes a string iff the string holds a reserved character. |
| DbConfig.EncodedHasNoDelimiters | src/shared/infrastructure/db/mongo/MongoDbClient.ts:126 | No `:`, `@`, `/` or `?` survives encoding. |
| DbConfig.CredentialsDelimited | src/shared/infrastructure/db/mongo/MongoDbClient.ts:126 | The user information of the credentialed URI holds no `@`. Its first `:` separates the encoded user name from the encoded password, and splitting there gives both encoded parts back, whatever the credentials hold. |
| DbConfig.CredentialsRecoverable | src/shared/infrastructure/db/mongo/MongoDbClient.ts:126 | Splitting the user information at its first `:` and decoding each side gives back the user name and the password. |
| DbConfig.GetDefaultDatabaseConfig | src/shared/infrastructure/db/mongo/MongoDbClient.ts:113-142 | The database is `MONGODB_DATABASE` when set and non-empty, else `devices_api`; the same name goes into the URI. With both a user and a password the URI is the credentialed one, with `authSource=admin`. Otherwise a set `MONGODB_URI` is used verbatim. Otherwise the URI is built from host, port and database. The pool and timeout options are 10, 5000 and 45000. |
| DbConfig.EmptyEnvironment | src/shared/infrastructure/db/mongo/MongoDbClient.ts:113-142 | An empty environment gives `mongodb://localhost:27017/devices_api` on database `devices_api`. |
| DbConfig.EmptyValueIsUnset | src/shared/infrastructure/db/mongo/MongoDbClient.ts:114-127 | A variable set to the empty string has the same effect as an unset one. |
| DbConfig.RootCredentialsFallback | src/shared/infrastructure/db/mongo/MongoDbClient.ts:116-119 | The `ROOT` user and password stand in when the application ones are unset. |
| DbConfig.CredentialsBeatExplicitUri | src/shared/infrastructure/db/mongo/MongoDbClient.ts:125-128 | Complete credentials win over `MONGODB_URI`. A user name without any password does not. |

## Left out

- **I/O and wiring.** Logging, dependency injection, the Express and routing-controllers transport, HTTP status codes on success, and the serialisation of response bodies are left out. None of them decides a result.
- **Connection lifecycle.** The `MongoDbClient` singleton, `ensureConnection` memoisation, connect and disconnect are left out, along with every asynchronous interleaving. Each repository operation is one atomic step on the store. Concurrent read-modify-write races are not modelled.
- **Timestamps.** `DeviceCreatedAt` and `DateValueObject` are not part of this model. A creation time is an opaque string supplied by the caller (`Fresh.now`).
- **Uniqueness of generated ids.** `randomUUID()` is an arbitrary string parameter. Whether it collides with a stored id is left to each property's hypotheses.
- **`DeviceName` and `DeviceBrand`.** These classes are not part of this model, and their checks are the `Rules` parameter. The model takes both to extend `StringValueObject` (`Values.FamilyOf`). So a name or brand that is defined but not a string fails the type check with `DomainValueTypeError`, which the error middleware answers with 500. If either class extends another base, that outcome may differ. The parents of `DeviceNotFoundError`, `UndefinedDomainValueError`, `DomainValueTypeError`, `ValidationDomainError` and `NotFoundDomainError` are likewise not shown. The model takes `DeviceNotFoundError` to extend `NotFoundDomainError`, and the other four to extend `CustomError` directly. `canBeDeleted` is not shown either; it is taken to be "state is not `in-use`", as its callers and tests require.
- **Redaction.RedactHeaders:** headers are a map from name to value, so the order in which the logger prints them is not modelled. Only which names are present and what each maps to is stated.
- **DbConfig.DecodeURIComponent:** this is a reference decoder used to state that the encoding can be inverted; the program itself never decodes. It reads only what the encoder writes. It does not model `decodeURIComponent`'s `URIError` on malformed escapes or on overlong and surrogate sequences.
- **Floating point.** Numbers are integers. `Date` values in headers and bodies are not modelled.
- **Repository.Update:** `runValidators` on `findOneAndUpdate` is approximated by the same path validators as `save`. The update's own cast is not modelled separately.
- **Text.ToLower:** lower-cases ASCII letters only. Full Unicode case mapping is not modelled, so a non-ASCII key that lower-cases to a sensitive word is not masked in the model.
- **Redaction.SanitizeObject:** keeps the order of the given fields. JavaScript lists integer-like keys of a plain object first, and that reordering is not modelled. Duplicate keys cannot occur in a parsed body and are not excluded by the model.
- **Query parameters.** The listing filters are strings or absent. Array-valued query parameters, which Express produces for a repeated parameter, are not modelled.
- **The `if (!device)` branch of `UpdateDevicesService.run`.** `findById` never returns a falsy device; it throws instead. The branch is therefore unreachable and is not modelled.
- **Services.GetDevices:** does not restate the listing's contents in its own contract. `Services.ListingIsFilteredStore` states them.
- **Errors.ToPrimitives:** is modelled only for `CustomError`s; the built-in `Error` has no such method.

## Findings

| source | as written | input that shows it | evidently intended | confidence | as-written member | corrected member |
|---|---|---|---|---|---|---|
| src/application/infrastructure/adapters/DeviceRepository.ts:93-96 | `documentToDevice` goes through `Device.fromPrimitives`. That builds a new `Device`, which draws a new id and createdAt. The subsequent `update` is keyed on the new id, so updating any stored device fails with 404 unless the new uuid happens to be stored. Get by id reports the clock's time as createdAt. | Store one valid `available` device, then PUT a valid patch to its id. The rebuild draws an unused uuid, and `findOneAndUpdate` matches nothing. | The rebuilt entity keeps the stored id and createdAt, so the update rewrites the same document and get reports the stored record. The e2e tests (src/test/DeviceController.e2e.test.ts:154-160, 199-246) expect this. | high; not executed | Services.UpdateOfStoredDeviceMisses | Services.UpdateDeviceKeepingIdentity |
| src/application/device/GetDeviceByIdService.ts:22-29 | Same cause: the device read back carries the rebuild's id and createdAt instead of the stored ones. | Get the id of any stored device. The response's `id` is the fresh uuid and its `createdAt` the current time. | The response is the stored record. | high; not executed | Services.GetReportsRebuiltIdentity | Services.GetDeviceByIdKeepingIdentity |
| src/shared/infrastructure/server/express/RequestLoggingMiddleware.ts:134 | `{ ...body }` spreads a top-level array into a plain object keyed by the indexes, so the logged body changes shape. | The body `[7]` is logged as `{"0": 7}`. | The array is sanitised as an array, as nested arrays already are. | medium; not executed | Redaction.ArrayBodyBecomesObject | Redaction.SanitizeRequestBodyKeepingArrays |

=== FILE: collection.dfy ===
/** The `devices` collection as the database creates it: the `$jsonSchema`
    validator and the unique index on `id`. A document at rest is a map from
    field names to values of any type. */
module CollectionValidator {
  import opened Text
  import opened JsValues
  import opened DocumentSchema

  type BsonDoc = map<string, JsValue>

  const RequiredFields: seq<string> := ["id", "name", "brand", "state", "createdAt"]
  const StateValues: seq<string> := ["available", "in-use", "inactive"]

  /** `bsonType: 'string'` on a declared property: checked only when the field is present. */
  predicate StringIfPresent(doc: BsonDoc, k: string) {
    k in doc ==> doc[k].JStr?
  }

  /** `maxLength` counts code points, with no trimming. */
  predicate MaxLengthIfString(doc: BsonDoc, k: string, max: nat) {
    k in doc && doc[k].JStr? ==> |doc[k].s| <= max
  }

  /** The `$jsonSchema` validator. Extra fields are allowed. */
  predicate Accepts(doc: BsonDoc) {
    && (forall k :: k in RequiredFields ==> k in doc)
    && (forall k :: k in RequiredFields ==> StringIfPresent(doc, k))
    && MaxLengthIfString(doc, "name", 100)
    && MaxLengthIfString(doc, "brand", 50)
    && ("state" in doc ==> doc["state"] in [JStr("available"), JStr("in-use"), JStr("inactive")])
  }

  /** A stored document as the database sees it. */
  function AsBson(doc: Doc): (b: BsonDoc)
    ensures b.Keys == {"id", "name", "brand", "state", "createdAt"}
  {
    map["id" := JStr(doc.id), "name" := JStr(doc.name), "brand" := JStr(doc.brand),
        "state" := JStr(doc.state), "createdAt" := JStr(doc.createdAt)]
  }

  /** The unique index on `id`: no two documents of the collection share one. */
  predicate UniqueIds(docs: seq<BsonDoc>) {
    forall i, j :: 0 <= i < j < |docs| && "id" in docs[i] && "id" in docs[j] ==> docs[i]["id"] != docs[j]["id"]
  }

  /** An insert succeeds when the document passes the validator and its id is
      not taken. */
  predicate InsertAccepted(docs: seq<BsonDoc>, doc: BsonDoc) {
    Accepts(doc) && forall i :: 0 <= i < |docs| && "id" in docs[i] ==> docs[i]["id"] != doc["id"]
  }

  // ---------------------------------------------------------------------
  // Properties

  /** On a five-string document the validator checks just the two lengths and the state. */
  lemma AcceptsStringDoc(doc: Doc)
    ensures Accepts(AsBson(doc)) <==>
      |doc.name| <= 100 && |doc.brand| <= 50 && doc.state in StateValues
  {
  }

  /** A document missing any of the five fields is refused, whatever else it holds. */
  lemma RequiresAllFive(doc: BsonDoc, k: string)
    requires k in RequiredFields && k !in doc
    ensures !Accepts(doc)
  {
  }

  /** A field of any other type than string is refused. */
  lemma RequiresStrings(doc: BsonDoc, k: string)
    requires k in RequiredFields && k in doc && !doc[k].JStr?
    ensures !Accepts(doc)
  {
  }

  /** Every document mongoose validation lets through also passes the
      collection validator: the schema is the stricter of the two. */
  lemma {:induction false} SchemaImpliesCollection(d: Draft)
    requires Validate(d).Ok?
    ensures Accepts(AsBson(Validate(d).value))
  {
    var doc := Validate(d).value;
    CodePointsAtMostUtf16(doc.name);
    CodePointsAtMostUtf16(doc.brand);
    AcceptsStringDoc(doc);
  }

  /** The converse fails: the collection takes an empty id and an untrimmed
      name, both of which mongoose would refuse or rewrite. */
  lemma CollectionLaxerThanSchema()
    ensures var doc := Doc("", " Pixel ", "Google", "available", "");
      Accepts(AsBson(doc)) && Validate(DraftOfDoc(doc)).Err?
  {
    var doc := Doc("", " Pixel ", "Google", "available", "");
    AcceptsStringDoc(doc);
  }

  /** Inserting a document whose id is already stored is refused. */
  lemma DuplicateIdRefused(docs: seq<BsonDoc>, i: int, doc: BsonDoc)
    requires 0 <= i < |docs| && "id" in docs[i] && "id" in doc && docs[i]["id"] == doc["id"]
    ensures !InsertAccepted(docs, doc)
  {
  }

  /** An accepted insert keeps the ids unique. */
  lemma {:induction false} InsertKeepsIdsUnique(docs: seq<BsonDoc>, doc: BsonDoc)
    requires UniqueIds(docs) && InsertAccepted(docs, doc)
    ensures UniqueIds(docs + [doc])
  {
    var all := docs + [doc];
    forall i, j | 0 <= i < j < |all| && "id" in all[i] && "id" in all[j]
      ensures all[i]["id"] != all[j]["id"]
    {
      if j < |docs| {
        assert all[i] == docs[i] && all[j] == docs[j];
      } else {
        assert all[i] == docs[i] && all[j] == doc;
      }
    }
  }
}

=== FILE: dbconfig.dfy ===
/** `getDefaultDatabaseConfig`: the connection descriptor built from the
    process environment, with `encodeURIComponent` for the credentials. */
module DbConfig {
  import opened Wrappers

  /** The process environment: variable names to values. */
  type Env = map<string, string>

  /** `process.env[name]` read through `||`: unset and empty are both falsy. */
  function Lookup(env: Env, name: string): (o: Option<string>)
    ensures o.Some? <==> name in env && env[name] != ""
    ensures o.Some? ==> o.value == env[name]
  {
    if name in env && env[name] != "" then Some(env[name]) else None
  }

  /** `a || b` on optional strings. */
  function OrElse(a: Option<string>, b: Option<string>): Option<string> {
    if a.Some? then a else b
  }

  function OrDefault(a: Option<string>, d: string): string {
    if a.Some? then a.value else d
  }

  // ---------------------------------------------------------------------
  // encodeURIComponent

  /** The characters `encodeURIComponent` leaves alone. */
  predicate Unreserved(c: char) {
    || ('A' <= c <= 'Z') || ('a' <= c <= 'z') || ('0' <= c <= '9')
    || c == '-' || c == '_' || c == '.' || c == '!' || c == '~' || c == '*' || c == '\'' || c == '(' || c == ')'
  }

  predicate IsUpperHex(c: char) {
    ('0' <= c <= '9') || ('A' <= c <= 'F')
  }

  /** What an encoded string is made of. */
  predicate Encoded(c: char) {
    Unreserved(c) || c == '%' || IsUpperHex(c)
  }

  /** The length of the UTF-8 sequence a lead byte opens. */
  function SequenceLength(lead: nat): (k: nat)
    ensures 1 <= k <= 4
  {
    if lead < 0x80 then 1 else if lead < 0xE0 then 2 else if lead < 0xF0 then 3 else 4
  }

  /** The code point a UTF-8 sequence of one to four bytes stands for. */
  function Utf8Value(bytes: seq<nat>): int
    requires 1 <= |bytes| <= 4
  {
    var b := seq(|bytes|, i requires 0 <= i < |bytes| => bytes[i] as int);
    if |b| == 1 then b[0]
    else if |b| == 2 then (b[0] - 0xC0) * 64 + (b[1] - 0x80)
    else if |b| == 3 then (b[0] - 0xE0) * 4096 + (b[1] - 0x80) * 64 + (b[2] - 0x80)
    else (b[0] - 0xF0) * 262144 + (b[1] - 0x80) * 4096 + (b[2] - 0x80) * 64 + (b[3] - 0x80)
  }

  /** The UTF-8 bytes of one Unicode scalar value: the lead byte carries the
      high bits, each continuation byte six more. */
  function Utf8(c: char): (bytes: seq<nat>)
    ensures 1 <= |bytes| <= 4
    ensures forall i :: 0 <= i < |bytes| ==> bytes[i] < 256
    ensures (c as int) < 0x80 <==> |bytes| == 1
    ensures SequenceLength(bytes[0]) == |bytes|
    ensures Utf8Value(bytes) == c as int
  {
    var n := c as int;
    if n < 0x80 then [n]
    else if n < 0x800 then
      var hi, lo := n / 64, n % 64;
      assert n == hi * 64 + lo;
      [0xC0 + hi, 0x80 + lo]
    else if n < 0x10000 then
      var hi, m := n / 4096, n % 4096;
      var mid, lo := m / 64, m % 64;
      assert n == hi * 4096 + m && m == mid * 64 + lo;
      [0xE0 + hi, 0x80 + mid, 0x80 + lo]
    else
      var hi, m := n / 262144, n % 262144;
      var upper, m2 := m / 4096, m % 4096;
      var mid, lo := m2 / 64, m2 % 64;
      assert n == hi * 262144 + m && m == upper * 4096 + m2 && m2 == mid * 64 + lo;
      [0xF0 + hi, 0x80 + upper, 0x80 + mid, 0x80 + lo]
  }

  /** The value of a hexadecimal digit. */
  function HexValue(c: char): (d: nat)
    requires IsUpperHex(c)
    ensures d < 16
  {
    if '0' <= c <= '9' then c as int - '0' as int else c as int - 'A' as int + 10
  }

  function HexDigit(d: nat): (c: char)
    requires d < 16
    ensures IsUpperHex(c) && HexValue(c) == d
  {
    if d < 10 then ('0' as int + d) as char else ('A' as int + d - 10) as char
  }

  /** `%XY` escapes of a run of bytes, upper-case hexadecimal. */
  function Escape(bytes: seq<nat>): (r: string)
    requires forall i :: 0 <= i < |bytes| ==> bytes[i] < 256
    ensures |r| == 3 * |bytes|
    ensures forall i :: 0 <= i < |r| ==> r[i] == '%' || IsUpperHex(r[i])
    ensures Unescape(r, |bytes|) == Some(bytes)
    decreases |bytes|
  {
    if bytes == [] then []
    else
      var rest := Escape(bytes[1..]);
      var r := ['%', HexDigit(bytes[0] / 16), HexDigit(bytes[0] % 16)] + rest;
      assert r[3..] == rest;
      assert [bytes[0]] + bytes[1..] == bytes;
      r
  }

  /** Reads `k` escapes `%XY` off the front of `r`, giving their bytes. */
  function Unescape(r: string, k: nat): (o: Option<seq<nat>>)
    ensures o.Some? ==> |o.value| == k
    decreases k
  {
    if k == 0 then Some([])
    else if |r| < 3 || r[0] != '%' || !IsUpperHex(r[1]) || !IsUpperHex(r[2]) then None
    else match Unescape(r[3..], k - 1)
      case None => None
      case Some(rest) => Some([HexValue(r[1]) * 16 + HexValue(r[2])] + rest)
  }

  function EncodeChar(c: char): (r: string)
    ensures Unreserved(c) ==> r == [c]
    ensures !Unreserved(c) ==> |r| >= 3 && r[0] == '%'
    ensures forall i :: 0 <= i < |r| ==> Encoded(r[i])
  {
    if Unreserved(c) then [c] else Escape(Utf8(c))
  }

  /** `encodeURIComponent`. Dafny characters are Unicode scalar values, so the
      lone surrogates on which the original throws cannot occur. */
  function EncodeURIComponent(s: string): (r: string)
    ensures forall i :: 0 <= i < |r| ==> Encoded(r[i])
    ensures |r| >= |s|
    ensures (forall i :: 0 <= i < |s| ==> Unreserved(s[i])) ==> r == s
    ensures (exists i :: 0 <= i < |s| && !Unreserved(s[i])) ==> |r| > |s|
    decreases |s|
  {
    if s == [] then []
    else
      var head := EncodeChar(s[0]);
      var rest := EncodeURIComponent(s[1..]);
      assert (exists i :: 0 <= i < |s| && !Unreserved(s[i])) ==> !Unreserved(s[0]) || exists i :: 0 <= i < |s[1..]| && !Unreserved(s[1..][i]) by {
        if exists i :: 0 <= i < |s| && !Unreserved(s[i]) {
          var i :| 0 <= i < |s| && !Unreserved(s[i]);
          if i > 0 { assert s[1..][i - 1] == s[i]; }
        }
      }
      head + rest
  }

  /** Encoding changes a string exactly when it holds a reserved character. */
  lemma {:induction false} EncodeIdentityIff(s: string)
    ensures EncodeURIComponent(s) == s <==> forall i :: 0 <= i < |s| ==> Unreserved(s[i])
  {
  }

  /** Neither the separator of user and password, nor the end of the
      credentials, nor a path separator survives encoding. */
  lemma {:induction false} EncodedHasNoDelimiters(s: string)
    ensures ':' !in EncodeURIComponent(s)
    ensures '@' !in EncodeURIComponent(s)
    ensures '/' !in EncodeURIComponent(s)
    ensures '?' !in EncodeURIComponent(s)
  {
    var r := EncodeURIComponent(s);
    forall i | 0 <= i < |r| ensures r[i] != ':' && r[i] != '@' && r[i] != '/' && r[i] != '?' {
      assert Encoded(r[i]);
    }
  }

  /** `decodeURIComponent` on the strings the encoder writes: an escape opens
      a UTF-8 sequence whose lead byte tells its length, any other character
      stands for itself. The result is the code points. */
  function DecodeURIComponent(r: string): (o: Option<seq<int>>)
    decreases |r|
  {
    if r == [] then Some([])
    else if r[0] != '%' then
      match DecodeURIComponent(r[1..])
      case None => None
      case Some(rest) => Some([r[0] as int] + rest)
    else
      match Unescape(r, 1)
      case None => None
      case Some(lead) =>
        var k := SequenceLength(lead[0]);
        if |r| < 3 * k then None
        else match Unescape(r, k)
          case None => None
          case Some(bytes) =>
            match DecodeURIComponent(r[3 * k..])
            case None => None
            case Some(rest) => Some([Utf8Value(bytes)] + rest)
  }

  /** The code points of a string. */
  function CodePoints(s: string): (r: seq<int>)
    ensures |r| == |s|
    ensures forall i :: 0 <= i < |s| ==> r[i] == s[i] as int
  {
    seq(|s|, i requires 0 <= i < |s| => s[i] as int)
  }

  /** The first `j` escapes of an escaped run read back as its first `j` bytes,
      whatever follows the run. */
  lemma {:induction false} UnescapePrefix(bytes: seq<nat>, tail: string, j: nat)
    requires forall i :: 0 <= i < |bytes| ==> bytes[i] < 256
    requires j <= |bytes|
    ensures Unescape(Escape(bytes) + tail, j) == Some(bytes[..j])
    decreases j
  {
    if j > 0 {
      var rest := Escape(bytes[1..]);
      var head := ['%', HexDigit(bytes[0] / 16), HexDigit(bytes[0] % 16)];
      assert Escape(bytes) == head + rest;
      var r := head + (rest + tail);
      assert Escape(bytes) + tail == r;
      assert r[3..] == rest + tail;
      assert HexValue(r[1]) * 16 + HexValue(r[2]) == bytes[0];
      UnescapePrefix(bytes[1..], tail, j - 1);
      assert bytes[..j] == [bytes[0]] + bytes[1..][..j - 1];
    }
  }

  /** One encoded character decodes to its code point, whatever follows it. */
  lemma {:induction false} DecodeEncodedChar(c: char, tail: string)
    requires !Unreserved(c)
    ensures var r := EncodeChar(c) + tail;
      var k := |Utf8(c)|;
      && Unescape(r, 1).Some? && SequenceLength(Unescape(r, 1).value[0]) == k
      && |r| >= 3 * k && Unescape(r, k) == Some(Utf8(c)) && r[3 * k..] == tail
  {
    var b := Utf8(c);
    UnescapePrefix(b, tail, 1);
    UnescapePrefix(b, tail, |b|);
    assert b[..|b|] == b;
  }

  /** The decoding step over one encoded character. */
  lemma {:induction false} DecodeStep(c: char, tail: string, rest: seq<int>)
    requires DecodeURIComponent(tail) == Some(rest)
    ensures DecodeURIComponent(EncodeChar(c) + tail) == Some([c as int] + rest)
  {
    var r := EncodeChar(c) + tail;
    if Unreserved(c) {
      assert r[0] == c && r[1..] == tail;
    } else {
      DecodeEncodedChar(c, tail);
      assert r[0] == '%';
    }
  }

  /** Decoding inverts encoding: the encoded string gives back every code point. */
  lemma {:induction false} DecodeInvertsEncode(s: string)
    ensures DecodeURIComponent(EncodeURIComponent(s)) == Some(CodePoints(s))
    decreases |s|
  {
    if s != [] {
      var tail := EncodeURIComponent(s[1..]);
      assert EncodeURIComponent(s) == EncodeChar(s[0]) + tail;
      DecodeInvertsEncode(s[1..]);
      DecodeStep(s[0], tail, CodePoints(s[1..]));
      assert CodePoints(s) == [s[0] as int] + CodePoints(s[1..]);
    }
  }

  /** Distinct credentials never encode alike. */
  lemma {:induction false} EncodeInjective(a: string, b: string)
    requires EncodeURIComponent(a) == EncodeURIComponent(b)
    ensures a == b
  {
    DecodeInvertsEncode(a);
    DecodeInvertsEncode(b);
    assert CodePoints(a) == CodePoints(b);
    forall i | 0 <= i < |a| ensures a[i] == b[i] {
      assert CodePoints(a)[i] == CodePoints(b)[i];
    }
  }

  // ---------------------------------------------------------------------
  // The configuration

  datatype Options = Options(maxPoolSize: nat, serverSelectionTimeoutMS: nat, socketTimeoutMS: nat)

  datatype DatabaseConfig = DatabaseConfig(uri: string, database: string, options: Options)

  const DefaultHost := "localhost"
  const DefaultPort := "27017"
  const DefaultDatabase := "devices_api"
  const DefaultOptions := Options(10, 5000, 45000)

  function Username(env: Env): Option<string> {
    OrElse(Lookup(env, "MONGODB_USERNAME"), Lookup(env, "MONGODB_ROOT_USERNAME"))
  }

  function Password(env: Env): Option<string> {
    OrElse(Lookup(env, "MONGODB_PASSWORD"), Lookup(env, "MONGODB_ROOT_PASSWORD"))
  }

  function Host(env: Env): string { OrDefault(Lookup(env, "MONGODB_HOST"), DefaultHost) }
  function Port(env: Env): string { OrDefault(Lookup(env, "MONGODB_PORT"), DefaultPort) }
  function Database(env: Env): string { OrDefault(Lookup(env, "MONGODB_DATABASE"), DefaultDatabase) }

  /** The user information of a credentialed URI: the encoded user name and
      password joined by `:`. */
  function UserInfo(user: string, password: string): string {
    EncodeURIComponent(user) + ":" + EncodeURIComponent(password)
  }

  /** The credentialed URI, authenticating against `admin`. */
  function CredentialUri(user: string, password: string, host: string, port: string, db: string): string {
    "mongodb://" + UserInfo(user, password) + "@" + (host + ":" + port + "/" + db + "?authSource=admin")
  }

  function PlainUri(host: string, port: string, db: string): string {
    "mongodb://" + host + ":" + port + "/" + db
  }

  /** `getDefaultDatabaseConfig`: credentials when both a user and a password
      are set, else `MONGODB_URI` when set, else host, port and database. */
  function GetDefaultDatabaseConfig(env: Env): (c: DatabaseConfig)
    ensures c.database != "" && c.options == DefaultOptions
    ensures c.database == Database(env)
    ensures Lookup(env, "MONGODB_DATABASE").Some? ==> c.database == env["MONGODB_DATABASE"]
    ensures Lookup(env, "MONGODB_DATABASE").None? ==> c.database == DefaultDatabase
    ensures Username(env).Some? && Password(env).Some? ==>
      c.uri == CredentialUri(Username(env).value, Password(env).value, Host(env), Port(env), c.database)
    ensures !(Username(env).Some? && Password(env).Some?) && Lookup(env, "MONGODB_URI").Some? ==>
      c.uri == env["MONGODB_URI"]
    ensures !(Username(env).Some? && Password(env).Some?) && Lookup(env, "MONGODB_URI").None? ==>
      c.uri == PlainUri(Host(env), Port(env), c.database)
  {
    var db := Database(env);
    var uri :=
      if Username(env).Some? && Password(env).Some? then
        CredentialUri(Username(env).value, Password(env).value, Host(env), Port(env), db)
      else if Lookup(env, "MONGODB_URI").Some? then Lookup(env, "MONGODB_URI").value
      else PlainUri(Host(env), Port(env), db);
    DatabaseConfig(uri, db, DefaultOptions)
  }

  // ---------------------------------------------------------------------
  // Properties

  /** An empty environment gives the local default. */
  lemma EmptyEnvironment()
    ensures GetDefaultDatabaseConfig(map[]) ==
      DatabaseConfig("mongodb://localhost:27017/devices_api", "devices_api", Options(10, 5000, 45000))
  {
    var env: Env := map[];
    assert Username(env).None? && Lookup(env, "MONGODB_URI").None?;
    assert Host(env) == "localhost" && Port(env) == "27017" && Database(env) == "devices_api";
    assert PlainUri("localhost", "27017", "devices_api") == "mongodb://localhost:27017/devices_api";
  }

  /** A variable set to the empty string counts as unset. */
  lemma {:induction false} EmptyValueIsUnset(env: Env, name: string)
    requires name in env && env[name] == ""
    ensures GetDefaultDatabaseConfig(env) == GetDefaultDatabaseConfig(env - {name})
  {
    var env' := env - {name};
    forall n ensures Lookup(env, n) == Lookup(env', n) {
    }
  }

  /** The `ROOT` variables stand in for missing application credentials. */
  lemma RootCredentialsFallback(env: Env)
    requires Lookup(env, "MONGODB_USERNAME").None? && Lookup(env, "MONGODB_PASSWORD").None?
    requires Lookup(env, "MONGODB_ROOT_USERNAME").Some? && Lookup(env, "MONGODB_ROOT_PASSWORD").Some?
    ensures GetDefaultDatabaseConfig(env).uri ==
      CredentialUri(env["MONGODB_ROOT_USERNAME"], env["MONGODB_ROOT_PASSWORD"], Host(env), Port(env), Database(env))
  {
  }

  /** Complete credentials win over an explicit `MONGODB_URI`; a user without a
      password does not. */
  lemma {:induction false} CredentialsBeatExplicitUri(env: Env, uri: string)
    requires uri != ""
    ensures var e := env["MONGODB_URI" := uri]["MONGODB_USERNAME" := "u"]["MONGODB_PASSWORD" := "p"];
      GetDefaultDatabaseConfig(e).uri == CredentialUri("u", "p", Host(e), Port(e), Database(e))
    ensures var e := env["MONGODB_URI" := uri]["MONGODB_USERNAME" := "u"] - {"MONGODB_PASSWORD", "MONGODB_ROOT_PASSWORD"};
      GetDefaultDatabaseConfig(e).uri == uri
  {
    var e := env["MONGODB_URI" := uri]["MONGODB_USERNAME" := "u"] - {"MONGODB_PASSWORD", "MONGODB_ROOT_PASSWORD"};
    assert Password(e).None?;
    assert Lookup(e, "MONGODB_URI") == Some(uri);
  }

  /** In a credentialed URI the user information ends at the first `@` and the
      user name at its first `:`, whatever characters the user name and
      password hold: splitting there gives back the two encoded parts. */
  lemma {:induction false} CredentialsDelimited(user: string, password: string)
    ensures var info := UserInfo(user, password);
      var n := |EncodeURIComponent(user)|;
      && '@' !in info
      && ':' !in info[..n]
      && n < |info| && info[n] == ':'
      && info[..n] == EncodeURIComponent(user)
      && info[n + 1..] == EncodeURIComponent(password)
  {
    EncodedHasNoDelimiters(user);
    EncodedHasNoDelimiters(password);
    var u := EncodeURIComponent(user);
    var p := EncodeURIComponent(password);
    var info := UserInfo(user, password);
    assert info == u + [':'] + p;
    assert info[..|u|] == u;
    assert info[|u| + 1..] == p;
    forall i | 0 <= i < |info| ensures info[i] != '@' {
      if i < |u| { assert info[i] == u[i]; }
      else if i > |u| { assert info[i] == p[i - |u| - 1]; }
    }
  }

  /** The user name and password are recovered from the user information:
      split at the first `:` and decode each side. */
  lemma {:induction false} CredentialsRecoverable(user: string, password: string)
    ensures var info := UserInfo(user, password);
      var n := |EncodeURIComponent(user)|;
      && n < |info|
      && DecodeURIComponent(info[..n]) == Some(CodePoints(user))
      && DecodeURIComponent(info[n + 1..]) == Some(CodePoints(password))
  {
    CredentialsDelimited(user, password);
    DecodeInvertsEncode(user);
    DecodeInvertsEncode(password);
  }
}

=== FILE: device.dfy ===
/** The `Device` entity: construction from a primitive record, rendering back
    to one, the partial update, and the deletion guard its callers rely on. */
module DeviceEntity {
  import opened Wrappers
  import opened JsValues
  import opened Errors
  import opened Values

  /** What one construction of a `Device` draws from the outside world: the
      UUID `new DeviceId()` generates and the clock reading `new
      DeviceCreatedAt()` renders (an ISO-8601 string, kept opaque here). */
  datatype Fresh = Fresh(uuid: string, now: string)

  datatype Device = Device(id: ValueObject, name: ValueObject, brand: ValueObject, state: ValueObject, createdAt: string)

  /** `DevicePrimitives`: the five fields as strings. */
  datatype Prims = Prims(id: string, name: string, brand: string, state: string, createdAt: string)

  /** `Partial<DevicePrimitives>` as it arrives from a request: any field may be
      missing (`JUndefined`) or hold a value of any JavaScript type. */
  datatype Patch = Patch(id: JsValue, name: JsValue, brand: JsValue, state: JsValue, createdAt: JsValue)

  function PatchOf(p: Prims): Patch {
    Patch(JStr(p.id), JStr(p.name), JStr(p.brand), JStr(p.state), JStr(p.createdAt))
  }

  const InUseMessage := "The device is in use. Updates disabled"
  const MissingFieldsMessage := "Error creating a Device due to missing some of the mandatory device parameters."

  /** The invariant every device the entity hands out keeps: each field holds a
      value object of its own class that passed that class's checks. */
  predicate WellFormed(d: Device, rules: Rules) {
    && NewValueObject(DeviceIdClass, d.id.value, AcceptAll) == Ok(d.id)
    && NewValueObject(DeviceNameClass, d.name.value, rules) == Ok(d.name)
    && NewValueObject(DeviceBrandClass, d.brand.value, rules) == Ok(d.brand)
    && NewValueObject(DeviceStateClass, d.state.value, rules) == Ok(d.state)
  }

  /** The constructor: the id and creation time are always freshly drawn. */
  function NewDevice(name: ValueObject, brand: ValueObject, state: ValueObject, draw: Fresh): (d: Device)
    ensures d.id == ValueObject(DeviceIdClass, JStr(draw.uuid))
    ensures d.createdAt == draw.now
  {
    Device(NewDeviceId(JUndefined, draw.uuid).value, name, brand, state, draw.now)
  }

  /** `Device.fromPrimitives`: name, brand and state must be truthy, then each
      is wrapped in its value object (in that order). The supplied id and
      createdAt are never read. */
  function FromPrimitives(p: Patch, rules: Rules, draw: Fresh): (r: Result<Device, Thrown>)
    ensures !(Truthy(p.name) && Truthy(p.brand) && Truthy(p.state)) ==> r == Err(ValidationError(MissingFieldsMessage))
    ensures r.Ok? ==> WellFormed(r.value, rules)
    ensures r.Ok? ==> r.value.name.value == p.name && r.value.brand.value == p.brand && r.value.state.value == p.state
    ensures r.Ok? ==> r.value.id.value == JStr(draw.uuid) && r.value.createdAt == draw.now
    ensures r.Ok? <==>
      && Truthy(p.name) && Truthy(p.brand) && Truthy(p.state)
      && NewValueObject(DeviceNameClass, p.name, rules).Ok?
      && NewValueObject(DeviceBrandClass, p.brand, rules).Ok?
      && NewValueObject(DeviceStateClass, p.state, rules).Ok?
  {
    if Truthy(p.name) && Truthy(p.brand) && Truthy(p.state) then
      var name :- NewValueObject(DeviceNameClass, p.name, rules);
      var brand :- NewValueObject(DeviceBrandClass, p.brand, rules);
      var state :- NewValueObject(DeviceStateClass, p.state, rules);
      Ok(NewDevice(name, brand, state, draw))
    else
      Err(ValidationError(MissingFieldsMessage))
  }

  /** `toPrimitives`: every field rendered through its value object. */
  function ToPrimitives(d: Device): (p: Prims)
    ensures d.id.value.JStr? ==> p.id == d.id.value.s
    ensures d.name.value.JStr? ==> p.name == d.name.value.s
    ensures d.brand.value.JStr? ==> p.brand == d.brand.value.s
    ensures d.state.value.JStr? ==> p.state == d.state.value.s
    ensures p.createdAt == d.createdAt
  {
    Prims(ToString(d.id), ToString(d.name), ToString(d.brand), ToString(d.state), d.createdAt)
  }

  /** The three fields `updateFields` may touch, in the order it touches them. */
  datatype Slot = BrandSlot | StateSlot | NameSlot

  function SlotClass(f: Slot): VoClass {
    match f
    case BrandSlot => DeviceBrandClass
    case StateSlot => DeviceStateClass
    case NameSlot => DeviceNameClass
  }

  function Get(d: Device, f: Slot): ValueObject {
    match f
    case BrandSlot => d.brand
    case StateSlot => d.state
    case NameSlot => d.name
  }

  /** One step of `updateFields`: a falsy patch value is skipped, a truthy one
      replaces the field only when its value object can be built. */
  function Assign(d: Device, f: Slot, v: JsValue, rules: Rules): (r: Result<Device, Thrown>)
    ensures !Truthy(v) ==> r == Ok(d)
    ensures r.Ok? && Truthy(v) ==> Get(r.value, f) == ValueObject(SlotClass(f), v)
    ensures r.Ok? ==> forall g :: g != f ==> Get(r.value, g) == Get(d, g)
    ensures r.Ok? ==> r.value.id == d.id && r.value.createdAt == d.createdAt
    ensures r.Err? <==> Truthy(v) && NewValueObject(SlotClass(f), v, rules).Err?
    ensures r.Err? ==> r.error == NewValueObject(SlotClass(f), v, rules).error
  {
    if !Truthy(v) then Ok(d)
    else
      var o :- NewValueObject(SlotClass(f), v, rules);
      match f
      case BrandSlot => Ok(d.(brand := o))
      case StateSlot => Ok(d.(state := o))
      case NameSlot => Ok(d.(name := o))
  }

  /** The entity after `updateFields` and the exception it threw, if any. The
      source mutates in place and does not roll back, so on failure the device
      keeps the fields assigned before the failing one. */
  datatype Updated = Updated(device: Device, error: Option<Thrown>)

  function UpdateFields(d: Device, patch: Patch, rules: Rules): (r: Updated)
    ensures d.state.value == JStr("in-use") ==> r == Updated(d, Some(ValidationError(InUseMessage)))
    ensures r.device.id == d.id && r.device.createdAt == d.createdAt
    ensures !Truthy(patch.brand) ==> r.device.brand == d.brand
    ensures !Truthy(patch.state) ==> r.device.state == d.state
    ensures !Truthy(patch.name) ==> r.device.name == d.name
  {
    if d.state.value == JStr("in-use") then Updated(d, Some(ValidationError(InUseMessage)))
    else match Assign(d, BrandSlot, patch.brand, rules)
      case Err(e) => Updated(d, Some(e))
      case Ok(d1) => match Assign(d1, StateSlot, patch.state, rules)
        case Err(e) => Updated(d1, Some(e))
        case Ok(d2) => match Assign(d2, NameSlot, patch.name, rules)
          case Err(e) => Updated(d2, Some(e))
          case Ok(d3) => Updated(d3, None)
  }

  /** `canBeDeleted`, which the shown `Device` does not define: its callers and
      tests require it to be false for an in-use device and true otherwise. */
  predicate CanBeDeleted(d: Device) {
    d.state.value != JStr("in-use")
  }

  // ---------------------------------------------------------------------
  // Properties

  /** `fromPrimitives` ignores the supplied id and createdAt entirely. */
  lemma FromPrimitivesIgnoresIdAndCreatedAt(p: Patch, id: JsValue, createdAt: JsValue, rules: Rules, draw: Fresh)
    ensures FromPrimitives(p.(id := id, createdAt := createdAt), rules, draw) == FromPrimitives(p, rules, draw)
  {
  }

  /** Rendering an accepted string record keeps its name, brand and state and
      replaces its id and createdAt with the fresh ones. */
  lemma {:induction false} PrimitivesRoundTrip(p: Prims, rules: Rules, draw: Fresh)
    requires FromPrimitives(PatchOf(p), rules, draw).Ok?
    ensures ToPrimitives(FromPrimitives(PatchOf(p), rules, draw).value)
         == Prims(draw.uuid, p.name, p.brand, p.state, draw.now)
  {
  }

  /** Which string records `fromPrimitives` accepts: all three fields non-empty,
      name and brand passing their rules and the state one of the three. */
  lemma AcceptedRecords(p: Prims, rules: Rules, draw: Fresh)
    ensures FromPrimitives(PatchOf(p), rules, draw).Ok? <==>
      && p.name != "" && p.brand != "" && p.state in ValidStates
      && rules.checkName(p.name).None? && rules.checkBrand(p.brand).None?
  {
  }

  /** `updateFields` keeps the entity well formed, whatever the outcome. */
  lemma {:induction false} UpdatePreservesWellFormed(d: Device, patch: Patch, rules: Rules)
    requires WellFormed(d, rules)
    ensures WellFormed(UpdateFields(d, patch, rules).device, rules)
  {
    if d.state.value != JStr("in-use") {
      AssignPreservesWellFormed(d, BrandSlot, patch.brand, rules);
      var r1 := Assign(d, BrandSlot, patch.brand, rules);
      if r1.Ok? {
        AssignPreservesWellFormed(r1.value, StateSlot, patch.state, rules);
        var r2 := Assign(r1.value, StateSlot, patch.state, rules);
        if r2.Ok? {
          AssignPreservesWellFormed(r2.value, NameSlot, patch.name, rules);
        }
      }
    }
  }

  lemma AssignPreservesWellFormed(d: Device, f: Slot, v: JsValue, rules: Rules)
    requires WellFormed(d, rules)
    ensures Assign(d, f, v, rules).Ok? ==> WellFormed(Assign(d, f, v, rules).value, rules)
  {
  }

  /** An in-use device cannot be changed at all, not even its state. */
  lemma InUseBlocksEveryUpdate(d: Device, patch: Patch, rules: Rules)
    requires d.state.value == JStr("in-use")
    ensures UpdateFields(d, patch, rules).device == d
    ensures UpdateFields(d, patch, rules).error.Some?
    ensures IsA(UpdateFields(d, patch, rules).error.value.cls, ValidationDomainErrorClass)
  {
  }

  /** When `updateFields` succeeds, every truthy patch field is now the
      device's value, rendered exactly as the patch wrote it. */
  lemma {:induction false} SuccessfulUpdateApplies(d: Device, patch: Patch, rules: Rules)
    requires UpdateFields(d, patch, rules).error.None?
    ensures var u := UpdateFields(d, patch, rules).device;
      && (Truthy(patch.brand) ==> u.brand == ValueObject(DeviceBrandClass, patch.brand))
      && (Truthy(patch.state) ==> u.state == ValueObject(DeviceStateClass, patch.state))
      && (Truthy(patch.name) ==> u.name == ValueObject(DeviceNameClass, patch.name))
      && (patch.brand.JStr? && patch.brand.s != "" ==> ToString(u.brand) == patch.brand.s)
      && (patch.state.JStr? && patch.state.s != "" ==> ToString(u.state) == patch.state.s)
      && (patch.name.JStr? && patch.name.s != "" ==> ToString(u.name) == patch.name.s)
  {
    var r1 := Assign(d, BrandSlot, patch.brand, rules);
    var r2 := Assign(r1.value, StateSlot, patch.state, rules);
    var r3 := Assign(r2.value, NameSlot, patch.name, rules);
    assert Get(r3.value, BrandSlot) == Get(r2.value, BrandSlot) == Get(r1.value, BrandSlot);
    assert Get(r3.value, StateSlot) == Get(r2.value, StateSlot);
  }

  /** `updateFields` fails exactly when the device is in use or some truthy
      patch field cannot be built into its value object. */
  lemma {:induction false} UpdateFailsIff(d: Device, patch: Patch, rules: Rules)
    ensures UpdateFields(d, patch, rules).error.Some? <==>
      || d.state.value == JStr("in-use")
      || (Truthy(patch.brand) && NewValueObject(DeviceBrandClass, patch.brand, rules).Err?)
      || (Truthy(patch.state) && NewValueObject(DeviceStateClass, patch.state, rules).Err?)
      || (Truthy(patch.name) && NewValueObject(DeviceNameClass, patch.name, rules).Err?)
  {
  }

  /** No roll-back: a valid brand is kept when the state that follows it is
      rejected, and the name is never reached. */
  lemma {:induction false} FailedUpdateKeepsEarlierFields(d: Device, patch: Patch, rules: Rules)
    requires d.state.value != JStr("in-use")
    requires Truthy(patch.brand) && NewValueObject(DeviceBrandClass, patch.brand, rules).Ok?
    requires Truthy(patch.state) && NewValueObject(DeviceStateClass, patch.state, rules).Err?
    ensures var r := UpdateFields(d, patch, rules);
      && r.error == Some(NewValueObject(DeviceStateClass, patch.state, rules).error)
      && r.device.brand == ValueObject(DeviceBrandClass, patch.brand)
      && r.device.state == d.state
      && r.device.name == d.name
  {
    var r1 := Assign(d, BrandSlot, patch.brand, rules);
    assert Get(r1.value, StateSlot) == d.state && Get(r1.value, NameSlot) == d.name;
  }

  /** The deletion guard agrees with the tests: false for in-use, true for
      available and inactive. */
  lemma CanBeDeletedByState(d: Device, rules: Rules)
    requires WellFormed(d, rules)
    ensures !CanBeDeleted(d) <==> ToString(d.state) == "in-use"
  {
  }
}

=== FILE: document.dfy ===
/** The mongoose `Device` schema: how a primitive record is cast into a
    document (trimming, the state default), the field validators a save runs,
    the pre-save hook, and the document's own primitive mapping. */
module DocumentSchema {
  import opened Wrappers
  import opened Text
  import opened Errors
  import opened DeviceEntity

  /** A document as handed to `new DeviceModel(...)`: any path may be unset. */
  datatype Draft = Draft(id: Option<string>, name: Option<string>, brand: Option<string>, state: Option<string>, createdAt: Option<string>)

  /** A stored document: the five string paths. */
  datatype Doc = Doc(id: string, name: string, brand: string, state: string, createdAt: string)

  const StateEnum: seq<string> := ["available", "in-use", "inactive"]
  const DefaultState := "available"
  const NameMaxLength := 100
  const BrandMaxLength := 50

  function DraftOf(p: Prims): Draft {
    Draft(Some(p.id), Some(p.name), Some(p.brand), Some(p.state), Some(p.createdAt))
  }

  function DraftOfDoc(doc: Doc): Draft {
    Draft(Some(doc.id), Some(doc.name), Some(doc.brand), Some(doc.state), Some(doc.createdAt))
  }

  function TrimOpt(o: Option<string>): Option<string> {
    match o
    case None => None
    case Some(s) => Some(Trim(s))
  }

  /** Casting: `trim: true` on name and brand, `default: 'available'` on state. */
  function Cast(d: Draft): (c: Draft)
    ensures c.id == d.id && c.createdAt == d.createdAt
    ensures d.state.None? ==> c.state == Some(DefaultState)
    ensures d.state.Some? ==> c.state == d.state
    ensures c.name.Some? <==> d.name.Some?
    ensures c.brand.Some? <==> d.brand.Some?
    ensures c.name.Some? ==> IsTrimmed(c.name.value)
    ensures c.brand.Some? ==> IsTrimmed(c.brand.value)
  {
    Draft(d.id, TrimOpt(d.name), TrimOpt(d.brand), if d.state.None? then Some(DefaultState) else d.state, d.createdAt)
  }

  /** `required: true` on a string path: set and not the empty string. */
  predicate Required(o: Option<string>) {
    o.Some? && o.value != ""
  }

  /** The path validators, run on the cast draft. `maxlength` counts UTF-16
      code units, as JavaScript's `length` does. */
  predicate SchemaAccepts(c: Draft) {
    && Required(c.id) && Required(c.name) && Required(c.brand) && Required(c.state) && Required(c.createdAt)
    && Utf16Length(c.name.value) <= NameMaxLength
    && Utf16Length(c.brand.value) <= BrandMaxLength
    && c.state.value in StateEnum
  }

  /** The pre-save hook: a save with an empty id or createdAt is refused. */
  predicate PreSaveAccepts(doc: Doc) {
    doc.id != "" && doc.createdAt != ""
  }

  /** Casting and validating a draft, as `doc.save()` does before the hook runs. */
  function Validate(d: Draft): (r: Result<Doc, Thrown>)
    ensures r.Ok? <==> SchemaAccepts(Cast(d))
    ensures r.Err? ==> r.error == Plain(SchemaValidationError, Absent)
    ensures r.Ok? ==> DraftOfDoc(r.value) == Cast(d)
    ensures r.Ok? ==> r.value.name != "" && IsTrimmed(r.value.name) && Utf16Length(r.value.name) <= NameMaxLength
    ensures r.Ok? ==> r.value.brand != "" && IsTrimmed(r.value.brand) && Utf16Length(r.value.brand) <= BrandMaxLength
    ensures r.Ok? ==> r.value.state in StateEnum
  {
    var c := Cast(d);
    if SchemaAccepts(c) then Ok(Doc(c.id.value, c.name.value, c.brand.value, c.state.value, c.createdAt.value))
    else Err(Plain(SchemaValidationError, Absent))
  }

  /** The instance method `toPrimitives`: a field-by-field copy. */
  function DocToPrimitives(doc: Doc): Prims {
    Prims(doc.id, doc.name, doc.brand, doc.state, doc.createdAt)
  }

  /** The static `fromPrimitives`: `new this({...})`, which casts but does not validate. */
  function DocFromPrimitives(p: Prims): Draft {
    Cast(DraftOf(p))
  }

  // ---------------------------------------------------------------------
  // Properties

  /** A document that passes validation also passes the pre-save hook, so the
      hook never fires on a save that reaches it. */
  lemma SchemaSubsumesPreSave(d: Draft)
    requires Validate(d).Ok?
    ensures PreSaveAccepts(Validate(d).value)
  {
  }

  /** A draft without a state is stored with `available`. */
  lemma MissingStateDefaults(d: Draft)
    requires d.state.None? && Validate(d).Ok?
    ensures Validate(d).value.state == DefaultState
  {
  }

  /** Length bounds apply to the trimmed value: padding never makes a name too long. */
  lemma PaddingIsNotCounted(p: Prims, pad: string)
    requires AllSpace(pad) && IsTrimmed(p.name)
    ensures Cast(DraftOf(p.(name := pad + p.name + pad))).name == Some(p.name)
  {
    TrimRemovesPadding(p.name, pad);
  }

  /** The document mapping is the identity on records whose name and brand are
      already trimmed, and only on those. */
  lemma {:induction false} DocRoundTripIff(p: Prims)
    ensures DocToPrimitives(Doc(p.id, Trim(p.name), Trim(p.brand), p.state, p.createdAt)) == p
        <==> IsTrimmed(p.name) && IsTrimmed(p.brand)
    ensures DocFromPrimitives(p) == DraftOf(p) <==> IsTrimmed(p.name) && IsTrimmed(p.brand)
  {
    TrimIdentityIff(p.name);
    TrimIdentityIff(p.brand);
  }

  /** A stored document mapped to primitives and back is the same draft, for
      any document mongoose wrote (those are trimmed). */
  lemma {:induction false} StoredDocRoundTrip(doc: Doc)
    requires IsTrimmed(doc.name) && IsTrimmed(doc.brand)
    ensures DocFromPrimitives(DocToPrimitives(doc)) == DraftOfDoc(doc)
  {
    TrimIdentityIff(doc.name);
    TrimIdentityIff(doc.brand);
  }
}

=== FILE: error_status.dfy ===
/** `CustomErrorMiddleware`: the HTTP status an error thrown by a service is
    answered with, decided by walking the error's `cause` chain. */
module ErrorStatus {
  import opened Wrappers
  import opened JsValues
  import opened Errors
  import opened Values
  import opened DeviceEntity
  import opened Repository
  import opened Services

  const BadRequest := 400
  const NotFound := 404
  const InternalServerError := 500

  /** `wasErrorCausedBy`: a `CustomError` that is an instance of `target`, or
      whose cause was; the walk stops at the first value that is not a
      `CustomError`, whatever that value's own cause. */
  predicate WasErrorCausedBy(e: Thrown, target: ErrorClass)
    decreases e
  {
    match e
    case Custom(cls, _, _, _, cause) => IsA(cls, target) || WasErrorCausedBy(cause, target)
    case _ => false
  }

  /** Reference definition: the classes of the leading run of `CustomError`s on
      the cause chain, outermost first. */
  function CustomChain(e: Thrown): (r: seq<ErrorClass>)
    ensures e.Custom? <==> r != []
    ensures e.Custom? ==> r[0] == e.cls
    decreases e
  {
    match e
    case Custom(cls, _, _, _, cause) => [cls] + CustomChain(cause)
    case _ => []
  }

  /** Where on the chain a cause was found: an index of the leading
      `CustomError` run whose class is an instance of the target. */
  lemma {:induction false} CauseIndex(e: Thrown, target: ErrorClass) returns (i: nat)
    requires WasErrorCausedBy(e, target)
    ensures i < |CustomChain(e)| && IsA(CustomChain(e)[i], target)
    decreases e
  {
    var c := CustomChain(e);
    assert c == [e.cls] + CustomChain(e.cause);
    if IsA(e.cls, target) {
      i := 0;
    } else {
      var j := CauseIndex(e.cause, target);
      i := j + 1;
      assert c[i] == CustomChain(e.cause)[j];
    }
  }

  /** Any instance of the target on the leading run is found by the walk. */
  lemma {:induction false} CausedAt(e: Thrown, target: ErrorClass, i: nat)
    requires i < |CustomChain(e)| && IsA(CustomChain(e)[i], target)
    ensures WasErrorCausedBy(e, target)
    decreases e
  {
    var c := CustomChain(e);
    assert c == [e.cls] + CustomChain(e.cause);
    if i > 0 {
      assert c[i] == CustomChain(e.cause)[i - 1];
      CausedAt(e.cause, target, i - 1);
    }
  }

  /** `wasErrorCausedBy` holds exactly when some error of the leading
      `CustomError` run is an instance of the target class. */
  lemma CausedByIffInChain(e: Thrown, target: ErrorClass)
    ensures WasErrorCausedBy(e, target) <==> exists i :: 0 <= i < |CustomChain(e)| && IsA(CustomChain(e)[i], target)
  {
    if WasErrorCausedBy(e, target) {
      var i := CauseIndex(e, target);
    }
    forall i | 0 <= i < |CustomChain(e)| && IsA(CustomChain(e)[i], target)
      ensures WasErrorCausedBy(e, target)
    {
      CausedAt(e, target, i);
    }
  }

  /** The `error` handler's choice of status. */
  function Status(e: Thrown): (code: int)
    ensures code in {BadRequest, NotFound, InternalServerError}
    ensures code == BadRequest <==> WasErrorCausedBy(e, ValidationDomainErrorClass)
    ensures code == NotFound <==> !WasErrorCausedBy(e, ValidationDomainErrorClass) && WasErrorCausedBy(e, NotFoundDomainErrorClass)
  {
    if WasErrorCausedBy(e, ValidationDomainErrorClass) then BadRequest
    else if WasErrorCausedBy(e, NotFoundDomainErrorClass) then NotFound
    else InternalServerError
  }

  // ---------------------------------------------------------------------
  // Properties of the mapping

  /** A validation error anywhere on the chain wins over a not-found error
      outside it: a `DeviceNotFoundError` caused by a validation error is a 400. */
  lemma {:induction false} ValidationTakesPrecedence(message: string, inner: string)
    ensures Status(NewCustomError(DeviceNotFoundErrorClass, message,
      ErrorOptions(ValidationError(inner), JUndefined, None))) == BadRequest
  {
    var e := NewCustomError(DeviceNotFoundErrorClass, message, ErrorOptions(ValidationError(inner), JUndefined, None));
    assert WasErrorCausedBy(e.cause, ValidationDomainErrorClass);
  }

  /** An error that is not a `CustomError` ends the walk: a plain error whose
      cause is a validation error is still a 500. */
  lemma PlainErrorHidesItsCause(kind: PlainKind, inner: string)
    ensures Status(Plain(kind, ValidationError(inner))) == InternalServerError
  {
  }

  /** Wrapping an error in a bare `CustomError` keeps its status. */
  lemma WrappingKeepsStatus(e: Thrown, message: string, name: Option<string>)
    requires e.Custom?
    ensures Status(NewCustomError(CustomErrorClass, message, ErrorOptions(e, JUndefined, name))) == Status(e)
  {
  }

  /** `InvalidDateValueError` is a validation error, so it is answered with 400. */
  lemma InvalidDateIsBadRequest()
    ensures Status(NewCustomError(InvalidDateValueErrorClass, "Invalid date value", NoOptions)) == BadRequest
  {
  }

  /** The value-object errors that are not validation errors are server errors,
      unless they wrap one. */
  lemma {:induction false} ValueErrorsAreServerErrors(v: JsValue)
    ensures Status(UndefinedValue) == InternalServerError
    ensures Status(TypeMismatch(v)) == InternalServerError
  {
    assert !IsA(UndefinedDomainValueErrorClass, ValidationDomainErrorClass) && !IsA(UndefinedDomainValueErrorClass, NotFoundDomainErrorClass) by {
      assert Parent(UndefinedDomainValueErrorClass) == Some(CustomErrorClass);
    }
    assert !IsA(DomainValueTypeErrorClass, ValidationDomainErrorClass) && !IsA(DomainValueTypeErrorClass, NotFoundDomainErrorClass) by {
      assert Parent(DomainValueTypeErrorClass) == Some(CustomErrorClass);
    }
    assert !WasErrorCausedBy(Absent, ValidationDomainErrorClass) && !WasErrorCausedBy(Absent, NotFoundDomainErrorClass);
  }

  /** Every error a repository raises is a server error except not-found. */
  lemma StoreErrorsAreServerErrors(kind: PlainKind)
    ensures Status(Plain(kind, Absent)) == InternalServerError
  {
  }

  /** Not-found errors raised by the repository are answered with 404. */
  lemma {:induction false} DeviceNotFoundIsNotFound(message: string)
    ensures Status(DeviceNotFound(message)) == NotFound
  {
    var e := DeviceNotFound(message);
    assert e.cls == DeviceNotFoundErrorClass && e.cause == Absent;
    ValidationAndNotFoundDisjoint(DeviceNotFoundErrorClass);
    assert !WasErrorCausedBy(e.cause, ValidationDomainErrorClass);
    assert !WasErrorCausedBy(e, ValidationDomainErrorClass);
    assert WasErrorCausedBy(e, NotFoundDomainErrorClass);
  }

  // ---------------------------------------------------------------------
  // The services' outcomes as HTTP statuses

  /** Getting an id that is not stored is answered with 404. */
  lemma UnknownIdIsNotFound(st: Store, id: string, uuid: string, rules: Rules, draw: Fresh)
    requires ToString(KeyOf(id, uuid)) !in st.docs
    ensures Status(GetDeviceById(st, id, uuid, rules, draw).error) == NotFound
  {
    DeviceNotFoundIsNotFound(NotFoundMessage(ToString(KeyOf(id, uuid))));
  }

  /** A create request missing a name, brand or state is answered with 400. */
  lemma IncompleteCreateIsBadRequest(st: Store, body: Patch, rules: Rules, draw: Fresh)
    requires Valid(st)
    requires !(Truthy(body.name) && Truthy(body.brand) && Truthy(body.state))
    ensures Status(CreateDevice(st, body, rules, draw).result.error) == BadRequest
  {
  }

  /** Deleting a stored device that is in use is answered with 400. */
  lemma DeleteInUseIsBadRequest(st: Store, id: string, uuid: string, rules: Rules, draw: Fresh)
    requires Valid(st)
    requires var key := ToString(KeyOf(id, uuid));
      key in st.docs && st.docs[key].state == "in-use" && DocumentToDevice(st.docs[key], rules, draw).Ok?
    ensures Status(DeleteDevice(st, id, uuid, rules, draw).result.error) == BadRequest
  {
  }

  /** Updating a stored, usable device with a valid patch is answered with 404
      when the id its rebuild draws is not stored. */
  lemma {:induction false} UpdateOfStoredDeviceIsNotFound(st: Store, patch: Patch, id: string, uuid: string, rules: Rules, draw: Fresh)
    requires Valid(st) && draw.uuid !in st.docs
    requires var key := ToString(KeyOf(id, uuid));
      && key in st.docs && DocumentToDevice(st.docs[key], rules, draw).Ok?
      && UpdateFields(DocumentToDevice(st.docs[key], rules, draw).value, patch, rules).error.None?
      && StoredForm(UpdateFields(DocumentToDevice(st.docs[key], rules, draw).value, patch, rules).device).Ok?
    ensures Status(UpdateDevice(st, patch, id, uuid, rules, draw).result.error) == NotFound
  {
    DeviceNotFoundIsNotFound(NotFoundMessage(draw.uuid));
  }
}

=== FILE: errors.dfy ===
/** The error taxonomy: `CustomError` with its name, message, optional context
    and cause, the subclasses the core throws, and the values a `throw` or an
    error's `cause` can hold. */
module Errors {
  import opened Wrappers
  import opened JsValues

  /** The `CustomError` classes of the core. Only `CustomError` and
      `InvalidDateValueError` are defined in the files modelled; the parents of
      the others are the assumptions listed in the README. */
  datatype ErrorClass =
    | CustomErrorClass
    | ValidationDomainErrorClass
    | NotFoundDomainErrorClass
    | InvalidDateValueErrorClass
    | DeviceNotFoundErrorClass
    | UndefinedDomainValueErrorClass
    | DomainValueTypeErrorClass

  /** `this.constructor.name`. */
  function ClassName(c: ErrorClass): string {
    match c
    case CustomErrorClass => "CustomError"
    case ValidationDomainErrorClass => "ValidationDomainError"
    case NotFoundDomainErrorClass => "NotFoundDomainError"
    case InvalidDateValueErrorClass => "InvalidDateValueError"
    case DeviceNotFoundErrorClass => "DeviceNotFoundError"
    case UndefinedDomainValueErrorClass => "UndefinedDomainValueError"
    case DomainValueTypeErrorClass => "DomainValueTypeError"
  }

  /** The `extends` clause of each class; `CustomError` extends the built-in `Error`. */
  function Parent(c: ErrorClass): Option<ErrorClass> {
    match c
    case CustomErrorClass => None
    case ValidationDomainErrorClass => Some(CustomErrorClass)
    case NotFoundDomainErrorClass => Some(CustomErrorClass)
    case InvalidDateValueErrorClass => Some(ValidationDomainErrorClass)
    case DeviceNotFoundErrorClass => Some(NotFoundDomainErrorClass)
    case UndefinedDomainValueErrorClass => Some(CustomErrorClass)
    case DomainValueTypeErrorClass => Some(CustomErrorClass)
  }

  function Depth(c: ErrorClass): nat
  {
    match c
    case CustomErrorClass => 0
    case InvalidDateValueErrorClass => 2
    case DeviceNotFoundErrorClass => 2
    case _ => 1
  }

  /** `instanceof`: `c` is `target` or inherits from it. */
  predicate IsA(c: ErrorClass, target: ErrorClass)
    decreases Depth(c)
  {
    c == target || (Parent(c).Some? && IsA(Parent(c).value, target))
  }

  /** The classes that `instanceof NotFoundDomainError` and
      `instanceof ValidationDomainError` pick out never overlap. */
  lemma ValidationAndNotFoundDisjoint(c: ErrorClass)
    ensures !(IsA(c, ValidationDomainErrorClass) && IsA(c, NotFoundDomainErrorClass))
  {
  }

  /** Every class of the taxonomy is a `CustomError`. */
  lemma AllAreCustomErrors(c: ErrorClass)
    ensures IsA(c, CustomErrorClass)
  {
  }

  /** Errors other than `CustomError`s, told apart only for the reader:
      mongoose validation, the pre-save hook, the collection validator, the
      unique index, and anything else (a driver failure, a programming error). */
  datatype PlainKind =
    | SchemaValidationError
    | PreSaveHookError
    | CollectionValidationError
    | DuplicateKeyError
    | OtherError

  /** Whatever a `throw` or an error's `cause` may hold. `Absent` is `undefined`
      or `null`; `Plain` is any value that is not a `CustomError`, possibly
      itself wrapping a cause. */
  datatype Thrown =
    | Absent
    | Plain(kind: PlainKind, cause: Thrown)
    | Custom(cls: ErrorClass, name: string, message: string, context: JsValue, cause: Thrown)

  /** The options bag of the `CustomError` constructor; `None` and `JUndefined`
      stand for an omitted (or nullish) option. */
  datatype ErrorOptions = ErrorOptions(cause: Thrown, context: JsValue, name: Option<string>)

  const NoOptions := ErrorOptions(Absent, JUndefined, None)

  /** `new C(message, options)` for a `CustomError` class `C` whose constructor
      passes its arguments through. The name falls back to the class name only
      when the option is nullish, so an explicit empty name is kept. */
  function NewCustomError(cls: ErrorClass, message: string, opts: ErrorOptions): (e: Thrown)
    ensures e.Custom? && e.cls == cls
    ensures e.message == message
    ensures e.cause == opts.cause && e.context == opts.context
    ensures opts.name.Some? ==> e.name == opts.name.value
    ensures opts.name.None? ==> e.name == ClassName(cls)
  {
    Custom(cls, if opts.name.Some? then opts.name.value else ClassName(cls), message, opts.context, opts.cause)
  }

  function ValidationError(message: string): (e: Thrown)
    ensures e.Custom? && IsA(e.cls, ValidationDomainErrorClass) && e.message == message
  {
    NewCustomError(ValidationDomainErrorClass, message, NoOptions)
  }

  function DeviceNotFound(message: string): (e: Thrown)
    ensures e.Custom? && IsA(e.cls, NotFoundDomainErrorClass) && e.message == message
  {
    NewCustomError(DeviceNotFoundErrorClass, message, NoOptions)
  }

  /** `CustomError.toPrimitives`: name and message always, the context only
      when it is truthy. */
  function ToPrimitives(e: Thrown): (r: JsValue)
    requires e.Custom?
    ensures r.JObject?
    ensures |r.fields| >= 2
    ensures r.fields[0] == Field("name", JStr(e.name))
    ensures r.fields[1] == Field("message", JStr(e.message))
    ensures Truthy(e.context) <==> "context" in Keys(r.fields)
    ensures Truthy(e.context) ==> r.fields == [r.fields[0], r.fields[1], Field("context", e.context)]
    ensures !Truthy(e.context) ==> |r.fields| == 2
  {
    var base := [Field("name", JStr(e.name)), Field("message", JStr(e.message))];
    if Truthy(e.context) then
      var r := JObject(base + [Field("context", e.context)]);
      assert Keys(r.fields)[2] == "context";
      r
    else
      assert Keys(base) == ["name", "message"];
      JObject(base)
  }

  /** The serialised form of a freshly built error reflects its constructor
      arguments: the message as given, the name as chosen, the context iff truthy. */
  lemma SerialisedError(cls: ErrorClass, message: string, opts: ErrorOptions)
    ensures var r := ToPrimitives(NewCustomError(cls, message, opts));
      && r.fields[1] == Field("message", JStr(message))
      && (opts.name.Some? ==> r.fields[0] == Field("name", JStr(opts.name.value)))
      && (opts.name.None? ==> r.fields[0] == Field("name", JStr(ClassName(cls))))
      && (Truthy(opts.context) <==> "context" in Keys(r.fields))
  {
  }
}

=== FILE: jsvalue.dfy ===
/** The JavaScript values that reach the core: request bodies and query
    parameters, error contexts, and the raw values wrapped by value objects.
    Numbers are integers here (floating point is not modelled). */
module JsValues {
  import opened Text

  datatype JsValue =
    | JUndefined
    | JNull
    | JBool(b: bool)
    | JNum(n: int)
    | JStr(s: string)
    | JArray(items: seq<JsValue>)
    | JObject(fields: seq<Field>)

  /** One own enumerable property of a plain object, in insertion order. */
  datatype Field = Field(key: string, value: JsValue)

  /** JavaScript truthiness: `undefined`, `null`, `false`, `0` and `""` are falsy,
      every object and array is truthy. */
  predicate Truthy(v: JsValue) {
    match v
    case JUndefined => false
    case JNull => false
    case JBool(b) => b
    case JNum(n) => n != 0
    case JStr(s) => s != ""
    case JArray(_) => true
    case JObject(_) => true
  }

  /** `typeof v === 'object' && v !== null`. */
  predicate IsObject(v: JsValue) {
    v.JArray? || v.JObject?
  }

  /** `String(v)`, the rendering `toString` and template literals produce. */
  function JsString(v: JsValue): string {
    match v
    case JUndefined => "undefined"
    case JNull => "null"
    case JBool(b) => if b then "true" else "false"
    case JNum(n) => IntToString(n)
    case JStr(s) => s
    case JArray(items) => JoinItems(items)
    case JObject(_) => "[object Object]"
  }

  /** `Array.prototype.join(",")`, which renders `null` and `undefined` as "". */
  function JoinItems(items: seq<JsValue>): string
    decreases items
  {
    if items == [] then ""
    else
      var head := if items[0].JUndefined? || items[0].JNull? then "" else JsString(items[0]);
      if |items| == 1 then head else head + "," + JoinItems(items[1..])
  }

  function Keys(fields: seq<Field>): seq<string> {
    seq(|fields|, i requires 0 <= i < |fields| => fields[i].key)
  }
}

=== FILE: redaction.dfy ===
/** The request logger's sanitisers: `sanitizeHeaders` masks four header
    names, `sanitizeRequestBody` masks every property, at any depth, whose
    lower-cased name contains a sensitive word. */
module Redaction {
  import opened Text
  import opened JsValues

  const Redacted := "[REDACTED]"

  // ---------------------------------------------------------------------
  // Headers

  const SensitiveHeaders: seq<string> := ["authorization", "cookie", "x-api-key", "x-auth-token"]

  /** The loop over `names`: a header that is present and truthy is replaced
      by the mask; nothing is added or removed. */
  function RedactHeaders(h: map<string, JsValue>, names: seq<string>): (r: map<string, JsValue>)
    ensures r.Keys == h.Keys
    ensures forall k :: k in h ==> r[k] == if k in names && Truthy(h[k]) then JStr(Redacted) else h[k]
    decreases |names|
  {
    if names == [] then h
    else
      var n := names[0];
      var h' := if n in h && Truthy(h[n]) then h[n := JStr(Redacted)] else h;
      var r := RedactHeaders(h', names[1..]);
      assert forall k :: k in names <==> k == n || k in names[1..];
      r
  }

  /** `sanitizeHeaders`. */
  function SanitizeHeaders(h: map<string, JsValue>): (r: map<string, JsValue>)
    ensures r.Keys == h.Keys
  {
    RedactHeaders(h, SensitiveHeaders)
  }

  /** Exactly the truthy sensitive headers are masked; every other header is
      passed through as it came. */
  lemma HeadersMaskedExactly(h: map<string, JsValue>, k: string)
    requires k in h
    ensures SanitizeHeaders(h)[k] == JStr(Redacted) <==> (k in SensitiveHeaders && Truthy(h[k])) || h[k] == JStr(Redacted)
    ensures k !in SensitiveHeaders ==> SanitizeHeaders(h)[k] == h[k]
  {
  }

  /** Sanitising headers twice masks nothing more. */
  lemma {:induction false} HeadersIdempotent(h: map<string, JsValue>)
    ensures SanitizeHeaders(SanitizeHeaders(h)) == SanitizeHeaders(h)
  {
    var once := SanitizeHeaders(h);
    var twice := SanitizeHeaders(once);
    forall k | k in once ensures twice[k] == once[k] {
      if k in SensitiveHeaders && Truthy(h[k]) {
        assert once[k] == JStr(Redacted);
      }
    }
  }

  // ---------------------------------------------------------------------
  // Bodies

  const SensitiveFields: seq<string> := ["password", "token", "secret", "key", "auth", "credential"]

  /** `sensitiveFields.some(field => key.toLowerCase().includes(field))`. */
  predicate IsSensitiveKey(key: string) {
    exists i :: 0 <= i < |SensitiveFields| && Contains(ToLower(key), SensitiveFields[i])
  }

  /** Array index keys, the digit strings `Object.keys` yields, are never sensitive. */
  lemma {:induction false} IndexKeysNotSensitive(i: nat)
    ensures !IsSensitiveKey(NatToString(i))
  {
    var k := NatToString(i);
    assert ToLower(k) == k by {
      forall j | 0 <= j < |k| ensures ToLower(k)[j] == k[j] {
        assert IsDigit(k[j]);
      }
    }
    forall w | 0 <= w < |SensitiveFields| ensures !Contains(ToLower(k), SensitiveFields[w]) {
      DigitsContainNoWord(k, SensitiveFields[w]);
    }
  }

  /** One property of `sanitizeObject`'s loop: a sensitive key is masked, an
      object value is sanitised in turn, anything else is kept. */
  function SanitizeEntry(key: string, v: JsValue): (r: JsValue)
    ensures IsSensitiveKey(key) ==> r == JStr(Redacted)
    ensures !IsSensitiveKey(key) && !IsObject(v) ==> r == v
    decreases v, 1
  {
    if IsSensitiveKey(key) then JStr(Redacted)
    else if IsObject(v) then SanitizeObject(v)
    else v
  }

  /** `sanitizeObject`: a copy of the array or object with each own key treated
      by `SanitizeEntry`; array keys are the indexes. Keys, their order and
      array lengths are kept. */
  function SanitizeObject(v: JsValue): (r: JsValue)
    ensures !IsObject(v) ==> r == v
    ensures v.JArray? ==> r.JArray? && |r.items| == |v.items|
    ensures v.JObject? ==> r.JObject? && Keys(r.fields) == Keys(v.fields)
    decreases v, 0
  {
    match v
    case JArray(items) =>
      JArray(seq(|items|, i requires 0 <= i < |items| => SanitizeEntry(NatToString(i), items[i])))
    case JObject(fields) =>
      var r := seq(|fields|, i requires 0 <= i < |fields| => Field(fields[i].key, SanitizeEntry(fields[i].key, fields[i].value)));
      assert Keys(r) == Keys(fields) by { KeysPointwise(r, fields); }
      JObject(r)
    case _ => v
  }

  lemma {:induction false} KeysPointwise(a: seq<Field>, b: seq<Field>)
    requires |a| == |b| && forall i :: 0 <= i < |a| ==> a[i].key == b[i].key
    ensures Keys(a) == Keys(b)
    decreases |a|
  {
    if a != [] {
      KeysPointwise(a[1..], b[1..]);
    }
  }

  /** The object a spread `{ ...body }` builds: an object's own properties, or
      an array's elements under their index keys. */
  function Spread(body: JsValue): (fields: seq<Field>)
    requires IsObject(body)
    ensures body.JObject? ==> fields == body.fields
    ensures body.JArray? ==> (|fields| == |body.items|
      && forall i :: 0 <= i < |fields| ==> fields[i] == Field(NatToString(i), body.items[i]))
  {
    match body
    case JObject(fields) => fields
    case JArray(items) => seq(|items|, i requires 0 <= i < |items| => Field(NatToString(i), items[i]))
  }

  /** `sanitizeRequestBody` as written: a non-object is returned as is, an
      object or array is first spread into a plain object and then sanitised. */
  function SanitizeRequestBody(body: JsValue): (r: JsValue)
    ensures !IsObject(body) ==> r == body
    ensures IsObject(body) ==> r.JObject?
  {
    if !IsObject(body) then body
    else SanitizeObject(JObject(Spread(body)))
  }

  /** `sanitizeRequestBody` keeping the body's shape: an array stays an array. */
  function SanitizeRequestBodyKeepingArrays(body: JsValue): (r: JsValue)
    ensures !IsObject(body) ==> r == body
    ensures body.JArray? ==> r.JArray? && |r.items| == |body.items|
    ensures body.JObject? ==> r == SanitizeRequestBody(body)
  {
    SanitizeObject(body)
  }

  // ---------------------------------------------------------------------
  // Properties of body sanitisation

  /** Reference definition of a masked value: at every depth, every sensitive
      key holds the mask and every other key holds a masked value. */
  predicate Clean(v: JsValue)
    decreases v, 0
  {
    match v
    case JArray(items) => forall i :: 0 <= i < |items| ==> CleanEntry(NatToString(i), items[i])
    case JObject(fields) => forall i :: 0 <= i < |fields| ==> CleanEntry(fields[i].key, fields[i].value)
    case _ => true
  }

  predicate CleanEntry(key: string, v: JsValue)
    decreases v, 1
  {
    if IsSensitiveKey(key) then v == JStr(Redacted) else Clean(v)
  }

  /** Whatever the input, the sanitised value is clean. */
  lemma {:induction false} SanitizedIsClean(v: JsValue)
    ensures Clean(SanitizeObject(v))
    decreases v, 0
  {
    match v
    case JArray(items) =>
      var r := SanitizeObject(v);
      forall i | 0 <= i < |items| ensures CleanEntry(NatToString(i), r.items[i]) {
        EntryIsClean(NatToString(i), items[i]);
      }
    case JObject(fields) =>
      var r := SanitizeObject(v);
      forall i | 0 <= i < |fields| ensures CleanEntry(r.fields[i].key, r.fields[i].value) {
        EntryIsClean(fields[i].key, fields[i].value);
      }
    case _ =>
  }

  lemma {:induction false} EntryIsClean(key: string, v: JsValue)
    ensures CleanEntry(key, SanitizeEntry(key, v))
    decreases v, 1
  {
    if !IsSensitiveKey(key) && IsObject(v) {
      SanitizedIsClean(v);
    }
  }

  /** Sanitising leaves a value unchanged exactly when it is already clean. */
  lemma {:induction false} FixedIffClean(v: JsValue)
    ensures SanitizeObject(v) == v <==> Clean(v)
    decreases v, 0
  {
    match v
    case JArray(items) =>
      var r := SanitizeObject(v).items;
      forall i | 0 <= i < |items| ensures r[i] == items[i] <==> CleanEntry(NatToString(i), items[i]) {
        EntryFixedIffClean(NatToString(i), items[i]);
      }
      if Clean(v) {
        assert r == items;
      }
    case JObject(fields) =>
      var r := SanitizeObject(v).fields;
      forall i | 0 <= i < |fields| ensures r[i] == fields[i] <==> CleanEntry(fields[i].key, fields[i].value) {
        EntryFixedIffClean(fields[i].key, fields[i].value);
      }
      if Clean(v) {
        assert r == fields;
      }
    case _ =>
  }

  lemma {:induction false} EntryFixedIffClean(key: string, v: JsValue)
    ensures SanitizeEntry(key, v) == v <==> CleanEntry(key, v)
    decreases v, 1
  {
    if !IsSensitiveKey(key) && IsObject(v) {
      FixedIffClean(v);
    }
  }

  /** Reference relation between a value and its sanitised form: the same
      kind of value, arrays of the same length, objects with the same keys in
      the same order, and at every key or index a sensitive key holds the mask,
      a non-sensitive object is sanitised in turn and anything else is kept. */
  predicate Agrees(v: JsValue, r: JsValue)
    decreases v, 0
  {
    match v
    case JArray(items) =>
      && r.JArray? && |r.items| == |items|
      && forall i :: 0 <= i < |items| ==> AgreesEntry(NatToString(i), items[i], r.items[i])
    case JObject(fields) =>
      && r.JObject? && |r.fields| == |fields|
      && forall i :: 0 <= i < |fields| ==>
           r.fields[i].key == fields[i].key && AgreesEntry(fields[i].key, fields[i].value, r.fields[i].value)
    case _ => r == v
  }

  predicate AgreesEntry(key: string, v: JsValue, r: JsValue)
    decreases v, 1
  {
    if IsSensitiveKey(key) then r == JStr(Redacted)
    else if IsObject(v) then Agrees(v, r)
    else r == v
  }

  /** The sanitised value agrees with its input at every depth. */
  lemma {:induction false} SanitizedAgrees(v: JsValue)
    ensures Agrees(v, SanitizeObject(v))
    decreases v, 0
  {
    match v
    case JArray(items) =>
      var r := SanitizeObject(v);
      forall i | 0 <= i < |items| ensures AgreesEntry(NatToString(i), items[i], r.items[i]) {
        EntryAgrees(NatToString(i), items[i]);
      }
    case JObject(fields) =>
      var r := SanitizeObject(v);
      forall i | 0 <= i < |fields|
        ensures r.fields[i].key == fields[i].key && AgreesEntry(fields[i].key, fields[i].value, r.fields[i].value)
      {
        EntryAgrees(fields[i].key, fields[i].value);
      }
    case _ =>
  }

  lemma {:induction false} EntryAgrees(key: string, v: JsValue)
    ensures AgreesEntry(key, v, SanitizeEntry(key, v))
    decreases v, 1
  {
    if !IsSensitiveKey(key) && IsObject(v) {
      SanitizedAgrees(v);
    }
  }

  /** Only the sanitised value agrees with the input: the relation pins the
      output down completely. */
  lemma {:induction false} AgreesOnlySanitized(v: JsValue, r: JsValue)
    requires Agrees(v, r)
    ensures r == SanitizeObject(v)
    decreases v, 0
  {
    match v
    case JArray(items) =>
      var s := SanitizeObject(v);
      forall i | 0 <= i < |items| ensures r.items[i] == s.items[i] {
        AgreesEntryOnly(NatToString(i), items[i], r.items[i]);
      }
      assert r.items == s.items;
    case JObject(fields) =>
      var s := SanitizeObject(v);
      forall i | 0 <= i < |fields| ensures r.fields[i] == s.fields[i] {
        AgreesEntryOnly(fields[i].key, fields[i].value, r.fields[i].value);
      }
      assert r.fields == s.fields;
    case _ =>
  }

  lemma {:induction false} AgreesEntryOnly(key: string, v: JsValue, r: JsValue)
    requires AgreesEntry(key, v, r)
    ensures r == SanitizeEntry(key, v)
    decreases v, 1
  {
    if !IsSensitiveKey(key) && IsObject(v) {
      AgreesOnlySanitized(v, r);
    }
  }

  /** The logged body, as written, is the spread body with exactly the
      sensitive values masked at every depth; corrected, it is the body itself
      with exactly those values masked, an array staying an array. */
  lemma {:induction false} RequestBodyAgrees(body: JsValue)
    requires IsObject(body)
    ensures Agrees(JObject(Spread(body)), SanitizeRequestBody(body))
    ensures Agrees(body, SanitizeRequestBodyKeepingArrays(body))
  {
    SanitizedAgrees(JObject(Spread(body)));
    SanitizedAgrees(body);
  }

  /** Sanitising twice masks nothing more. */
  lemma {:induction false} BodyIdempotent(v: JsValue)
    ensures SanitizeObject(SanitizeObject(v)) == SanitizeObject(v)
  {
    SanitizedIsClean(v);
    FixedIffClean(SanitizeObject(v));
  }

  /** Array elements are never masked themselves, only searched. */
  lemma {:induction false} ArrayElementsKept(items: seq<JsValue>, i: nat)
    requires i < |items| && !IsObject(items[i])
    ensures SanitizeObject(JArray(items)).items[i] == items[i]
  {
    IndexKeysNotSensitive(i);
  }

  /** For an object body the two versions agree; for an array body the one as
      written answers with a plain object keyed by the indexes. */
  lemma {:induction false} ArrayBodyBecomesObject()
    ensures SanitizeRequestBody(JArray([JNum(7)])) == JObject([Field("0", JNum(7))])
    ensures SanitizeRequestBodyKeepingArrays(JArray([JNum(7)])) == JArray([JNum(7)])
  {
    assert NatToString(0) == "0";
    IndexKeysNotSensitive(0);
    assert Spread(JArray([JNum(7)])) == [Field("0", JNum(7))];
    assert !IsSensitiveKey("0");
  }
}

=== FILE: repository.dfy ===
/** `DeviceRepository` over an abstract store: the collection is a finite map
    from domain id to document, plus the natural order `find()` returns the
    documents in. Every operation returns the store it leaves behind. */
module Repository {
  import opened Wrappers
  import opened Text
  import opened JsValues
  import Errors
  import opened Values
  import opened DeviceEntity
  import opened DocumentSchema
  import CollectionValidator

  datatype Store = Store(order: seq<string>, docs: map<string, Doc>)

  predicate Distinct(s: seq<string>) {
    forall i, j :: 0 <= i < j < |s| ==> s[i] != s[j]
  }

  /** What the database guarantees of the collection at all times: the natural
      order lists each stored id once, every document is filed under its own
      id (the unique index), and every document passes the collection validator. */
  ghost predicate Valid(st: Store) {
    && Distinct(st.order)
    && (forall k :: k in st.order <==> k in st.docs)
    && (forall k :: k in st.docs ==> Storable(k, st.docs[k]))
  }

  const Empty := Store([], map[])

  /** An operation's outcome together with the store it leaves. */
  datatype Step<T> = Step(store: Store, result: Result<T, Errors.Thrown>)

  function NotFoundMessage(id: string): string {
    "Device with id " + id + " doesn't exist"
  }

  /** `documentToDevice`: the document's primitives through `Device.fromPrimitives`,
      so the entity's id and createdAt are the freshly drawn ones. */
  function DocumentToDevice(doc: Doc, rules: Rules, draw: Fresh): (r: Result<Device, Errors.Thrown>)
    ensures r.Ok? ==> ToPrimitives(r.value) == Prims(draw.uuid, doc.name, doc.brand, doc.state, draw.now)
    ensures r.Ok? ==> r.value.name.value == JStr(doc.name) && r.value.brand.value == JStr(doc.brand) && r.value.state.value == JStr(doc.state)
    ensures r.Ok? <==>
      && doc.name != "" && doc.brand != "" && doc.state in ValidStates
      && rules.checkName(doc.name).None? && rules.checkBrand(doc.brand).None?
  {
    AcceptedRecords(DocToPrimitives(doc), rules, draw);
    var r := FromPrimitives(PatchOf(DocToPrimitives(doc)), rules, draw);
    assert r.Ok? ==> ToPrimitives(r.value) == Prims(draw.uuid, doc.name, doc.brand, doc.state, draw.now) by {
      if r.Ok? { PrimitivesRoundTrip(DocToPrimitives(doc), rules, draw); }
    }
    r
  }

  /** The rebuild `documentToDevice` evidently intends: the entity keeps the
      stored id and createdAt instead of drawing new ones. */
  function Restore(doc: Doc, rules: Rules): (r: Result<Device, Errors.Thrown>)
    ensures r.Ok? ==> ToPrimitives(r.value) == DocToPrimitives(doc)
    ensures r.Ok? <==> forall draw :: DocumentToDevice(doc, rules, draw).Ok?
  {
    DocumentToDevice(doc, rules, Fresh(doc.id, doc.createdAt))
  }

  /** The stored documents in natural order. */
  function Stored(st: Store): (docs: seq<Doc>)
    requires Valid(st)
    ensures |docs| == |st.order|
    ensures forall i :: 0 <= i < |docs| ==> docs[i] == st.docs[st.order[i]]
  {
    seq(|st.order|, i requires 0 <= i < |st.order| => st.docs[st.order[i]])
  }

  /** `Array.prototype.map` with a callback that may throw: the first failure
      stops the walk. The callback also receives the element's position,
      counted from `offset`. */
  function MapOrThrow<A, B, E>(xs: seq<A>, f: (A, nat) -> Result<B, E>, offset: nat): (r: Result<seq<B>, E>)
    ensures r.Ok? ==> |r.value| == |xs|
    ensures r.Ok? ==> forall i :: 0 <= i < |xs| ==> f(xs[i], offset + i) == Ok(r.value[i])
    ensures r.Ok? <==> forall i :: 0 <= i < |xs| ==> f(xs[i], offset + i).Ok?
    ensures r.Err? ==> exists i :: 0 <= i < |xs| && f(xs[i], offset + i) == Err(r.error)
    decreases |xs|
  {
    if xs == [] then Ok([])
    else
      var head := f(xs[0], offset);
      if head.Err? then Err(head.error)
      else
        var rest := MapOrThrow(xs[1..], f, offset + 1);
        assert forall i :: 1 <= i < |xs| ==> xs[1..][i - 1] == xs[i] && offset + 1 + (i - 1) == offset + i;
        if rest.Err? then
          assert exists i :: 0 <= i < |xs| && f(xs[i], offset + i) == Err(rest.error) by {
            var i :| 0 <= i < |xs| - 1 && f(xs[1..][i], offset + 1 + i) == Err(rest.error);
            assert xs[1..][i] == xs[i + 1] && offset + 1 + i == offset + (i + 1);
          }
          Err(rest.error)
        else
          var r := [head.value] + rest.value;
          assert forall i :: 1 <= i < |xs| ==> r[i] == rest.value[i - 1];
          Ok(r)
  }

  /** The devices rebuilt from `docs`, in order; the `i`-th draws `draws(offset + i)`. */
  function Rebuild(docs: seq<Doc>, rules: Rules, draws: nat -> Fresh, offset: nat): (r: Result<seq<Device>, Errors.Thrown>)
    ensures r.Ok? ==> |r.value| == |docs|
    ensures r.Ok? ==> forall i :: 0 <= i < |docs| ==> DocumentToDevice(docs[i], rules, draws(offset + i)) == Ok(r.value[i])
    ensures r.Ok? <==> forall i :: 0 <= i < |docs| ==> DocumentToDevice(docs[i], rules, draws(offset + i)).Ok?
    ensures r.Err? ==> exists i :: 0 <= i < |docs| && DocumentToDevice(docs[i], rules, draws(offset + i)) == Err(r.error)
  {
    MapOrThrow(docs, (doc, i) => DocumentToDevice(doc, rules, draws(i)), offset)
  }

  /** What the rebuild of one document renders as. */
  lemma RebuiltRendering(doc: Doc, rules: Rules, draw: Fresh, d: Device)
    requires DocumentToDevice(doc, rules, draw) == Ok(d)
    ensures ToPrimitives(d) == Prims(draw.uuid, doc.name, doc.brand, doc.state, draw.now)
  {
  }

  /** Rebuilding the stored documents succeeds exactly when each one, with its
      own draw, passes `documentToDevice`. */
  lemma {:induction false} RebuildsIff(st: Store, rules: Rules, draws: nat -> Fresh)
    requires Valid(st)
    ensures Rebuild(Stored(st), rules, draws, 0).Ok? <==>
      forall i :: 0 <= i < |st.order| ==> DocumentToDevice(st.docs[st.order[i]], rules, draws(i)).Ok?
  {
    var docs := Stored(st);
    forall i | 0 <= i < |st.order|
      ensures DocumentToDevice(docs[i], rules, draws(0 + i)) == DocumentToDevice(st.docs[st.order[i]], rules, draws(i))
    {
      assert docs[i] == st.docs[st.order[i]];
    }
  }

  /** `getAll`: every stored document rebuilt into an entity, in natural order. */
  function GetAll(st: Store, rules: Rules, draws: nat -> Fresh): (r: Result<seq<Device>, Errors.Thrown>)
    requires Valid(st)
    ensures r.Ok? <==> forall i :: 0 <= i < |st.order| ==> DocumentToDevice(st.docs[st.order[i]], rules, draws(i)).Ok?
    ensures r.Ok? ==> |r.value| == |st.order|
    ensures r.Ok? ==> forall i :: 0 <= i < |st.order| ==>
      ToPrimitives(r.value[i]) == Prims(draws(i).uuid, st.docs[st.order[i]].name, st.docs[st.order[i]].brand, st.docs[st.order[i]].state, draws(i).now)
  {
    var docs := Stored(st);
    var r := Rebuild(docs, rules, draws, 0);
    RebuildsIff(st, rules, draws);
    assert r.Ok? ==> forall i :: 0 <= i < |st.order| ==>
      ToPrimitives(r.value[i]) == Prims(draws(i).uuid, st.docs[st.order[i]].name, st.docs[st.order[i]].brand, st.docs[st.order[i]].state, draws(i).now)
    by {
      if r.Ok? {
        forall i | 0 <= i < |st.order|
          ensures ToPrimitives(r.value[i]) == Prims(draws(i).uuid, st.docs[st.order[i]].name, st.docs[st.order[i]].brand, st.docs[st.order[i]].state, draws(i).now)
        {
          assert DocumentToDevice(docs[i], rules, draws(0 + i)) == Ok(r.value[i]);
          RebuiltRendering(docs[i], rules, draws(i), r.value[i]);
        }
      }
    }
    r
  }

  /** `findById`: not-found when no document carries the id, else the rebuilt entity. */
  function FindById(st: Store, id: ValueObject, rules: Rules, draw: Fresh): (r: Result<Device, Errors.Thrown>)
    ensures ToString(id) !in st.docs ==> r == Err(Errors.DeviceNotFound(NotFoundMessage(ToString(id))))
    ensures ToString(id) in st.docs ==> r == DocumentToDevice(st.docs[ToString(id)], rules, draw)
    ensures r.Ok? ==> (ToString(id) in st.docs &&
      ToPrimitives(r.value) == Prims(draw.uuid, st.docs[ToString(id)].name, st.docs[ToString(id)].brand, st.docs[ToString(id)].state, draw.now))
  {
    var key := ToString(id);
    if key !in st.docs then Err(Errors.DeviceNotFound(NotFoundMessage(key)))
    else DocumentToDevice(st.docs[key], rules, draw)
  }

  /** The document a device is stored as: its primitives cast and validated. */
  function StoredForm(device: Device): (r: Result<Doc, Errors.Thrown>)
    ensures r.Ok? ==> var p := ToPrimitives(device);
      r.value == Doc(p.id, Trim(p.name), Trim(p.brand), p.state, p.createdAt)
    ensures r.Ok? ==> PreSaveAccepts(r.value) && CollectionValidator.Accepts(CollectionValidator.AsBson(r.value))
  {
    var d := DraftOf(ToPrimitives(device));
    var r := Validate(d);
    assert r.Ok? ==> PreSaveAccepts(r.value) && CollectionValidator.Accepts(CollectionValidator.AsBson(r.value)) by {
      if r.Ok? {
        SchemaSubsumesPreSave(d);
        CollectionValidator.SchemaImpliesCollection(d);
      }
    }
    assert r.Ok? ==> DraftOfDoc(r.value) == Cast(d);
    r
  }

  /** What a document must satisfy to sit in the collection under `k`. */
  predicate Storable(k: string, doc: Doc) {
    doc.id == k && CollectionValidator.Accepts(CollectionValidator.AsBson(doc))
  }

  /** Appending a new document to the collection. */
  function Insert(st: Store, doc: Doc): (r: Store)
    requires Valid(st) && doc.id !in st.docs && Storable(doc.id, doc)
    ensures Valid(r)
    ensures r.order == st.order + [doc.id] && r.docs == st.docs[doc.id := doc]
  {
    var r := Store(st.order + [doc.id], st.docs[doc.id := doc]);
    assert Distinct(r.order) by {
      forall i, j | 0 <= i < j < |r.order| ensures r.order[i] != r.order[j] {
        if j == |st.order| { assert st.order[i] in st.docs; }
      }
    }
    r
  }

  /** Replacing the document stored under its own id, in place. */
  function Replace(st: Store, doc: Doc): (r: Store)
    requires Valid(st) && doc.id in st.docs && Storable(doc.id, doc)
    ensures Valid(r)
    ensures r.order == st.order && r.docs == st.docs[doc.id := doc]
  {
    Store(st.order, st.docs[doc.id := doc])
  }

  /** `save`: validation, the pre-save hook, the collection validator and the
      unique index, in that order; on success the document is appended and the
      argument returned. */
  function Save(st: Store, device: Device): (s: Step<Device>)
    requires Valid(st)
    ensures Valid(s.store)
    ensures s.result.Err? ==> s.store == st
    ensures s.result.Ok? <==> StoredForm(device).Ok? && ToPrimitives(device).id !in st.docs
    ensures StoredForm(device).Ok? && ToPrimitives(device).id in st.docs ==>
      s.result == Err(Errors.Plain(Errors.DuplicateKeyError, Errors.Absent))
    ensures s.result.Ok? ==> s.result.value == device
    ensures s.result.Ok? ==> var p := ToPrimitives(device);
      && s.store.order == st.order + [p.id]
      && s.store.docs == st.docs[p.id := Doc(p.id, Trim(p.name), Trim(p.brand), p.state, p.createdAt)]
  {
    match StoredForm(device)
    case Err(e) => Step(st, Err(e))
    case Ok(doc) =>
      if !PreSaveAccepts(doc) then Step(st, Err(Errors.Plain(Errors.PreSaveHookError, Errors.Absent)))
      else if !CollectionValidator.Accepts(CollectionValidator.AsBson(doc)) then Step(st, Err(Errors.Plain(Errors.CollectionValidationError, Errors.Absent)))
      else if doc.id in st.docs then Step(st, Err(Errors.Plain(Errors.DuplicateKeyError, Errors.Absent)))
      else Step(Insert(st, doc), Ok(device))
  }

  /** `update`: `findOneAndUpdate` keyed on the entity's id with validators on.
      Only that document changes, and the argument is returned, not the stored document. */
  function Update(st: Store, device: Device): (s: Step<Device>)
    requires Valid(st)
    ensures Valid(s.store)
    ensures s.result.Err? ==> s.store == st
    ensures s.store.order == st.order
    ensures StoredForm(device).Ok? && ToPrimitives(device).id !in st.docs ==>
      s.result == Err(Errors.DeviceNotFound(NotFoundMessage(ToPrimitives(device).id)))
    ensures s.result.Ok? <==> StoredForm(device).Ok? && ToPrimitives(device).id in st.docs
    ensures s.result.Ok? ==> s.result.value == device
    ensures s.result.Ok? ==> var p := ToPrimitives(device);
      s.store.docs == st.docs[p.id := Doc(p.id, Trim(p.name), Trim(p.brand), p.state, p.createdAt)]
  {
    match StoredForm(device)
    case Err(e) => Step(st, Err(e))
    case Ok(doc) =>
      if doc.id !in st.docs then Step(st, Err(Errors.DeviceNotFound(NotFoundMessage(doc.id))))
      else if !CollectionValidator.Accepts(CollectionValidator.AsBson(doc)) then Step(st, Err(Errors.Plain(Errors.CollectionValidationError, Errors.Absent)))
      else Step(Replace(st, doc), Ok(device))
  }

  /** `s` with every occurrence of `k` dropped, order kept. */
  function Without(s: seq<string>, k: string): (r: seq<string>)
    ensures forall x :: x in r <==> x in s && x != k
    ensures Distinct(s) ==> Distinct(r)
    ensures |r| <= |s|
  {
    if s == [] then []
    else
      var rest := Without(s[1..], k);
      if s[0] == k then rest
      else
        assert Distinct(s) ==> Distinct([s[0]] + rest) by {
          if Distinct(s) {
            forall j | 0 <= j < |s| - 1 ensures s[1..][j] != s[0] {
              assert s[1..][j] == s[j + 1];
            }
            var r := [s[0]] + rest;
            forall i, j | 0 <= i < j < |r| ensures r[i] != r[j] {
              if i == 0 { assert r[j] == rest[j - 1] && r[j] in s[1..]; }
              else { assert r[i] == rest[i - 1] && r[j] == rest[j - 1]; }
            }
          }
        }
        [s[0]] + rest
  }

  /** `delete`: `deleteOne` keyed on the given id; not-found when nothing was removed. */
  function Delete(st: Store, id: ValueObject): (s: Step<()>)
    requires Valid(st)
    ensures Valid(s.store)
    ensures s.result.Err? ==> s.store == st
    ensures ToString(id) !in st.docs ==> s.result == Err(Errors.DeviceNotFound(NotFoundMessage(ToString(id))))
    ensures s.result.Ok? <==> ToString(id) in st.docs
    ensures s.result.Ok? ==> s.store.docs == st.docs - {ToString(id)}
    ensures s.result.Ok? ==> s.store.order == Without(st.order, ToString(id))
  {
    var key := ToString(id);
    if key !in st.docs then Step(st, Err(Errors.DeviceNotFound(NotFoundMessage(key))))
    else Step(Store(Without(st.order, key), st.docs - {key}), Ok(()))
  }

  // ---------------------------------------------------------------------
  // Properties relating the operations

  /** A saved device can be found again under its id, with the stored name and
      brand (trimmed) and its state, but a newly drawn id and createdAt. */
  lemma {:induction false} FindAfterSave(st: Store, device: Device, rules: Rules, draw: Fresh)
    requires Valid(st) && Save(st, device).result.Ok?
    requires IsTrimmed(ToPrimitives(device).name) && IsTrimmed(ToPrimitives(device).brand)
    requires rules.checkName(ToPrimitives(device).name).None? && rules.checkBrand(ToPrimitives(device).brand).None?
    ensures var p := ToPrimitives(device);
      var found := FindById(Save(st, device).store, ValueObject(DeviceIdClass, JStr(p.id)), rules, draw);
      found.Ok? && ToPrimitives(found.value) == Prims(draw.uuid, p.name, p.brand, p.state, draw.now)
  {
    var p := ToPrimitives(device);
    TrimIdentityIff(p.name);
    TrimIdentityIff(p.brand);
    var doc := StoredForm(device).value;
    assert doc == Doc(p.id, p.name, p.brand, p.state, p.createdAt);
    assert doc.name != "" && doc.brand != "" && doc.state in StateEnum by {
      assert DraftOfDoc(doc) == Cast(DraftOf(p));
    }
    var st' := Save(st, device).store;
    assert st'.docs[p.id] == doc;
    assert FindById(st', ValueObject(DeviceIdClass, JStr(p.id)), rules, draw) == DocumentToDevice(doc, rules, draw);
  }

  /** After a successful delete the id is gone: finding it reports not-found. */
  lemma FindAfterDelete(st: Store, id: ValueObject, rules: Rules, draw: Fresh)
    requires Valid(st) && Delete(st, id).result.Ok?
    ensures FindById(Delete(st, id).store, id, rules, draw) == Err(Errors.DeviceNotFound(NotFoundMessage(ToString(id))))
  {
  }

  /** Updating with a device that was just saved succeeds and stores its new primitives. */
  lemma {:induction false} UpdateAfterSave(st: Store, saved: Device, changed: Device)
    requires Valid(st) && Save(st, saved).result.Ok?
    requires ToPrimitives(changed).id == ToPrimitives(saved).id && StoredForm(changed).Ok?
    ensures Update(Save(st, saved).store, changed).result == Ok(changed)
  {
  }
}

=== FILE: services.dfy ===
/** The five application services: list with filters, get by id, create,
    update and delete. Each takes the store and the draws its entity
    constructions make, and returns the store it leaves behind. */
module Services {
  import opened Wrappers
  import opened Text
  import opened JsValues
  import Errors
  import opened Values
  import opened DeviceEntity
  import opened DocumentSchema
  import opened Repository

  // ---------------------------------------------------------------------
  // Listing

  /** The optional `brand`, `state` and `name` query parameters. */
  datatype Filters = Filters(brand: Option<string>, state: Option<string>, name: Option<string>)

  const NoFilters := Filters(None, None, None)

  /** `!f || value === f`: an absent or empty filter lets every value through. */
  predicate Passes(f: Option<string>, v: JsValue) {
    f.None? || f.value == "" || v == JStr(f.value)
  }

  predicate Matches(d: Device, f: Filters) {
    Passes(f.brand, d.brand.value) && Passes(f.state, d.state.value) && Passes(f.name, d.name.value)
  }

  /** `ds[i]` passes the filters and renders as `p`. */
  predicate Hit(ds: seq<Device>, f: Filters, i: int, p: Prims) {
    0 <= i < |ds| && Matches(ds[i], f) && ToPrimitives(ds[i]) == p
  }

  /** The `filter` then `map(toPrimitives)` of `GetDevicesService.run`. */
  function Select(ds: seq<Device>, f: Filters): (r: seq<Prims>)
    ensures |r| <= |ds|
    ensures forall p :: p in r <==> exists i :: Hit(ds, f, i, p)
  {
    if ds == [] then []
    else
      var rest := Select(ds[1..], f);
      var r := (if Matches(ds[0], f) then [ToPrimitives(ds[0])] else []) + rest;
      assert forall p :: p in r ==> exists i :: Hit(ds, f, i, p) by {
        forall p | p in r ensures exists i :: Hit(ds, f, i, p) {
          if p in rest {
            var i :| Hit(ds[1..], f, i, p);
            assert Hit(ds, f, i + 1, p);
          } else {
            assert Hit(ds, f, 0, p);
          }
        }
      }
      assert forall p :: (exists i :: Hit(ds, f, i, p)) ==> p in r by {
        forall p | exists i :: Hit(ds, f, i, p) ensures p in r {
          var i :| Hit(ds, f, i, p);
          if i > 0 { assert Hit(ds[1..], f, i - 1, p); }
        }
      }
      r
  }

  /** The response body of a listing. */
  datatype Listing = Listing(total: nat, data: seq<Prims>)

  /** `GetDevicesService.run`: every stored device rebuilt, filtered and rendered. */
  function GetDevices(st: Store, f: Filters, rules: Rules, draws: nat -> Fresh): (r: Result<Listing, Errors.Thrown>)
    requires Valid(st)
    ensures r.Ok? ==> r.value.total == |r.value.data| <= |st.order|
    ensures r.Ok? <==> forall i :: 0 <= i < |st.order| ==> DocumentToDevice(st.docs[st.order[i]], rules, draws(i)).Ok?
  {
    var all :- GetAll(st, rules, draws);
    var data := Select(all, f);
    Ok(Listing(|data|, data))
  }

  /** A filter on the stored string, as the listing sees it. */
  predicate PassesStored(f: Option<string>, s: string) {
    f.None? || f.value == "" || s == f.value
  }

  predicate DocMatches(doc: Doc, f: Filters) {
    PassesStored(f.brand, doc.brand) && PassesStored(f.state, doc.state) && PassesStored(f.name, doc.name)
  }

  /** Reference listing read straight off the documents: the matching ones in
      order, each with the id and createdAt the `i`-th rebuild draws. */
  function Expected(docs: seq<Doc>, f: Filters, draws: nat -> Fresh, offset: nat): seq<Prims>
    decreases |docs|
  {
    if docs == [] then []
    else
      var doc := docs[0];
      (if DocMatches(doc, f) then [Prims(draws(offset).uuid, doc.name, doc.brand, doc.state, draws(offset).now)] else [])
        + Expected(docs[1..], f, draws, offset + 1)
  }

  lemma {:induction false} SelectRebuilt(docs: seq<Doc>, f: Filters, rules: Rules, draws: nat -> Fresh, offset: nat)
    requires Rebuild(docs, rules, draws, offset).Ok?
    ensures Select(Rebuild(docs, rules, draws, offset).value, f) == Expected(docs, f, draws, offset)
    decreases |docs|
  {
    if docs != [] {
      var ds := Rebuild(docs, rules, draws, offset).value;
      var head := DocumentToDevice(docs[0], rules, draws(offset));
      var rest := Rebuild(docs[1..], rules, draws, offset + 1);
      assert ds == [head.value] + rest.value;
      assert ds[1..] == rest.value;
      assert Matches(head.value, f) <==> DocMatches(docs[0], f);
      SelectRebuilt(docs[1..], f, rules, draws, offset + 1);
    }
  }

  /** The listing is exactly the reference: the stored documents that match
      every non-empty filter, in natural order, none missing, none added. */
  lemma {:induction false} ListingIsFilteredStore(st: Store, f: Filters, rules: Rules, draws: nat -> Fresh)
    requires Valid(st) && GetDevices(st, f, rules, draws).Ok?
    ensures GetDevices(st, f, rules, draws).value.data == Expected(Stored(st), f, draws, 0)
  {
    SelectRebuilt(Stored(st), f, rules, draws, 0);
  }

  /** Filtering commutes with concatenation, so the listing keeps the store's order. */
  lemma {:induction false} SelectKeepsOrder(a: seq<Device>, b: seq<Device>, f: Filters)
    ensures Select(a + b, f) == Select(a, f) + Select(b, f)
    decreases |a|
  {
    if a == [] {
      assert a + b == b;
    } else {
      assert (a + b)[0] == a[0];
      assert (a + b)[1..] == a[1..] + b;
      SelectKeepsOrder(a[1..], b, f);
    }
  }

  /** Without filters (or with empty ones) every device is listed. */
  lemma {:induction false} UnfilteredSelectsAll(ds: seq<Device>, f: Filters)
    requires forall o :: o in [f.brand, f.state, f.name] ==> o.None? || o.value == ""
    ensures |Select(ds, f)| == |ds|
    ensures forall i :: 0 <= i < |ds| ==> Select(ds, f)[i] == ToPrimitives(ds[i])
    decreases |ds|
  {
    if ds != [] {
      assert Matches(ds[0], f);
      UnfilteredSelectsAll(ds[1..], f);
      forall i | 1 <= i < |ds| ensures Select(ds, f)[i] == ToPrimitives(ds[i]) {
        assert ds[1..][i - 1] == ds[i];
      }
    }
  }

  // ---------------------------------------------------------------------
  // Single-device services

  /** The id a request's path segment stands for: `new DeviceId(s)` keeps a
      non-empty string and replaces the empty one by the generated `uuid`. */
  function KeyOf(id: string, uuid: string): (o: ValueObject)
    ensures o.cls == DeviceIdClass
    ensures ToString(o) == if id == "" then uuid else id
  {
    NewDeviceId(JStr(id), uuid).value
  }

  /** `GetDeviceByIdService.run`. */
  function GetDeviceById(st: Store, id: string, uuid: string, rules: Rules, draw: Fresh): (r: Result<Prims, Errors.Thrown>)
    ensures var key := ToString(KeyOf(id, uuid));
      key !in st.docs ==> r == Err(Errors.DeviceNotFound(NotFoundMessage(key)))
    ensures var key := ToString(KeyOf(id, uuid));
      r.Ok? <==> key in st.docs && DocumentToDevice(st.docs[key], rules, draw).Ok?
    ensures var key := ToString(KeyOf(id, uuid));
      r.Ok? ==> r.value == Prims(draw.uuid, st.docs[key].name, st.docs[key].brand, st.docs[key].state, draw.now)
  {
    var device :- FindById(st, KeyOf(id, uuid), rules, draw);
    Ok(ToPrimitives(device))
  }

  /** `CreateDevicesService.run`: build the entity from the request body, save it,
      and render the saved entity (the argument `save` returns, not the stored document). */
  function CreateDevice(st: Store, body: Patch, rules: Rules, draw: Fresh): (s: Step<Prims>)
    requires Valid(st)
    ensures Valid(s.store)
    ensures s.result.Err? ==> s.store == st
    ensures !(Truthy(body.name) && Truthy(body.brand) && Truthy(body.state)) ==>
      s.result == Err(Errors.ValidationError(MissingFieldsMessage))
    ensures draw.uuid in st.docs ==> s.result.Err?
    ensures s.result.Ok? ==>
      && body.name == JStr(s.result.value.name) && body.brand == JStr(s.result.value.brand) && body.state == JStr(s.result.value.state)
      && s.result.value.id == draw.uuid && s.result.value.createdAt == draw.now
    ensures s.result.Ok? ==> var p := s.result.value;
      && p.name != "" && p.brand != "" && p.state in ValidStates
      && rules.checkName(p.name).None? && rules.checkBrand(p.brand).None?
    ensures s.result.Ok? ==> var p := s.result.value;
      && s.store.order == st.order + [draw.uuid]
      && s.store.docs == st.docs[draw.uuid := Doc(draw.uuid, Trim(p.name), Trim(p.brand), p.state, draw.now)]
    ensures s.result.Ok? <==>
      && FromPrimitives(body, rules, draw).Ok?
      && StoredForm(FromPrimitives(body, rules, draw).value).Ok?
      && draw.uuid !in st.docs
    ensures s.result.Ok? ==> s.result.value == ToPrimitives(FromPrimitives(body, rules, draw).value)
  {
    match FromPrimitives(body, rules, draw)
    case Err(e) => Step(st, Err(e))
    case Ok(device) =>
      var saved := Save(st, device);
      match saved.result
      case Err(e) => Step(saved.store, Err(e))
      case Ok(d) => Step(saved.store, Ok(ToPrimitives(d)))
  }

  /** `UpdateDevicesService.run`: find the device, apply the patch, write it back.
      The write is keyed on the id of the rebuilt entity, which `draw` supplies. */
  function UpdateDevice(st: Store, patch: Patch, id: string, uuid: string, rules: Rules, draw: Fresh): (s: Step<Prims>)
    requires Valid(st)
    ensures Valid(s.store)
    ensures s.result.Err? ==> s.store == st
    ensures s.store.order == st.order
    ensures var key := ToString(KeyOf(id, uuid));
      key !in st.docs ==> s.result == Err(Errors.DeviceNotFound(NotFoundMessage(key)))
    ensures var key := ToString(KeyOf(id, uuid));
      key in st.docs && st.docs[key].state == "in-use" && DocumentToDevice(st.docs[key], rules, draw).Ok? ==>
        s.result == Err(Errors.ValidationError(InUseMessage))
    ensures var key := ToString(KeyOf(id, uuid));
      s.result.Ok? <==>
        && key in st.docs && DocumentToDevice(st.docs[key], rules, draw).Ok?
        && UpdateFields(DocumentToDevice(st.docs[key], rules, draw).value, patch, rules).error.None?
        && StoredForm(UpdateFields(DocumentToDevice(st.docs[key], rules, draw).value, patch, rules).device).Ok?
        && draw.uuid in st.docs
    ensures var key := ToString(KeyOf(id, uuid));
      && key in st.docs && DocumentToDevice(st.docs[key], rules, draw).Ok?
      && UpdateFields(DocumentToDevice(st.docs[key], rules, draw).value, patch, rules).error.None?
      && StoredForm(UpdateFields(DocumentToDevice(st.docs[key], rules, draw).value, patch, rules).device).Ok?
      && draw.uuid !in st.docs
      ==> s.result == Err(Errors.DeviceNotFound(NotFoundMessage(draw.uuid)))
    ensures s.result.Ok? ==> s.result.value.id == draw.uuid && s.result.value.createdAt == draw.now
    ensures s.result.Ok? ==> var p := s.result.value;
      s.store.docs == st.docs[draw.uuid := Doc(draw.uuid, Trim(p.name), Trim(p.brand), p.state, draw.now)]
    ensures var key := ToString(KeyOf(id, uuid));
      s.result.Ok? ==> s.result.value == ToPrimitives(UpdateFields(DocumentToDevice(st.docs[key], rules, draw).value, patch, rules).device)
  {
    match FindById(st, KeyOf(id, uuid), rules, draw)
    case Err(e) => Step(st, Err(e))
    case Ok(device) =>
      var u := UpdateFields(device, patch, rules);
      if u.error.Some? then Step(st, Err(u.error.value))
      else
        var written := Update(st, u.device);
        match written.result
        case Err(e) => Step(written.store, Err(e))
        case Ok(d) => Step(written.store, Ok(ToPrimitives(d)))
  }

  const CannotDeleteMessage := "This device cannot be deleted as it is in use"

  /** `DeleteDevicesService.run`: find the device, refuse while it is in use,
      else delete by the requested id. */
  function DeleteDevice(st: Store, id: string, uuid: string, rules: Rules, draw: Fresh): (s: Step<()>)
    requires Valid(st)
    ensures Valid(s.store)
    ensures s.result.Err? ==> s.store == st
    ensures var key := ToString(KeyOf(id, uuid));
      key !in st.docs ==> s.result == Err(Errors.DeviceNotFound(NotFoundMessage(key)))
    ensures var key := ToString(KeyOf(id, uuid));
      key in st.docs && st.docs[key].state == "in-use" && DocumentToDevice(st.docs[key], rules, draw).Ok? ==>
        s.result == Err(Errors.ValidationError(CannotDeleteMessage))
    ensures var key := ToString(KeyOf(id, uuid));
      s.result.Ok? <==> key in st.docs && DocumentToDevice(st.docs[key], rules, draw).Ok? && st.docs[key].state != "in-use"
    ensures s.result.Ok? ==> s.store.docs == st.docs - {ToString(KeyOf(id, uuid))}
    ensures s.result.Ok? ==> s.store.order == Without(st.order, ToString(KeyOf(id, uuid)))
  {
    var key := KeyOf(id, uuid);
    match FindById(st, key, rules, draw)
    case Err(e) => Step(st, Err(e))
    case Ok(device) =>
      if CanBeDeleted(device) then Delete(st, key)
      else Step(st, Err(Errors.ValidationError(CannotDeleteMessage)))
  }

  // ---------------------------------------------------------------------
  // Properties across services

  /** Updating a stored device fails whenever the id its rebuild draws is not
      itself stored: the write looks for a document that does not exist. */
  lemma UpdateOfStoredDeviceMisses(st: Store, patch: Patch, id: string, uuid: string, rules: Rules, draw: Fresh)
    requires Valid(st) && ToString(KeyOf(id, uuid)) in st.docs && draw.uuid !in st.docs
    ensures UpdateDevice(st, patch, id, uuid, rules, draw).result.Err?
    ensures UpdateDevice(st, patch, id, uuid, rules, draw).store == st
  {
  }

  /** A stored device's id and createdAt, the draw under which rebuilding it
      keeps its identity; any draw will do for an id that is not stored. */
  function StoredIdentity(st: Store, key: string): (draw: Fresh)
    requires Valid(st)
    ensures key in st.docs ==> draw == Fresh(st.docs[key].id, st.docs[key].createdAt)
  {
    if key in st.docs then Fresh(key, st.docs[key].createdAt) else Fresh(key, "")
  }

  /** The update the service evidently intends: the found device keeps its
      stored id and createdAt, so the write goes back to the same document.
      It succeeds exactly when the device is stored, rebuilds, takes the patch
      and still validates, whatever id a rebuild would have drawn. */
  function UpdateDeviceKeepingIdentity(st: Store, patch: Patch, id: string, uuid: string, rules: Rules): (s: Step<Prims>)
    requires Valid(st)
    ensures Valid(s.store)
    ensures s.result.Err? ==> s.store == st
    ensures var key := ToString(KeyOf(id, uuid));
      key !in st.docs ==> s.result == Err(Errors.DeviceNotFound(NotFoundMessage(key)))
    ensures var key := ToString(KeyOf(id, uuid));
      s.result.Ok? <==>
        && key in st.docs && Restore(st.docs[key], rules).Ok?
        && UpdateFields(Restore(st.docs[key], rules).value, patch, rules).error.None?
        && StoredForm(UpdateFields(Restore(st.docs[key], rules).value, patch, rules).device).Ok?
    ensures var key := ToString(KeyOf(id, uuid));
      s.result.Ok? ==> var p := s.result.value;
        && key in st.docs && p.id == key && p.createdAt == st.docs[key].createdAt
        && s.store.order == st.order
        && s.store.docs == st.docs[key := Doc(key, Trim(p.name), Trim(p.brand), p.state, st.docs[key].createdAt)]
    ensures var key := ToString(KeyOf(id, uuid));
      s.result.Ok? ==> s.result.value == ToPrimitives(UpdateFields(Restore(st.docs[key], rules).value, patch, rules).device)
  {
    var key := ToString(KeyOf(id, uuid));
    var draw := StoredIdentity(st, key);
    assert key in st.docs ==> Storable(key, st.docs[key]) && Restore(st.docs[key], rules) == DocumentToDevice(st.docs[key], rules, draw);
    UpdateDevice(st, patch, id, uuid, rules, draw)
  }

  /** The intended update applies the patch: each truthy field of the patch is
      the response's value for it, every other field is the stored one, and the
      document written back is the response with name and brand trimmed. */
  lemma {:induction false} KeptIdentityUpdateApplies(st: Store, patch: Patch, id: string, uuid: string, rules: Rules)
    requires Valid(st) && UpdateDeviceKeepingIdentity(st, patch, id, uuid, rules).result.Ok?
    ensures var key := ToString(KeyOf(id, uuid));
      var p := UpdateDeviceKeepingIdentity(st, patch, id, uuid, rules).result.value;
      && key in st.docs
      && p.name == (if Truthy(patch.name) then JsString(patch.name) else st.docs[key].name)
      && p.brand == (if Truthy(patch.brand) then JsString(patch.brand) else st.docs[key].brand)
      && p.state == (if Truthy(patch.state) then JsString(patch.state) else st.docs[key].state)
  {
    var key := ToString(KeyOf(id, uuid));
    var d := Restore(st.docs[key], rules).value;
    assert ToPrimitives(d) == DocToPrimitives(st.docs[key]);
    SuccessfulUpdateApplies(d, patch, rules);
  }

  /** Getting by id with the identity kept reports the stored record as it is. */
  function GetDeviceByIdKeepingIdentity(st: Store, id: string, uuid: string, rules: Rules): (r: Result<Prims, Errors.Thrown>)
    requires Valid(st)
    ensures var key := ToString(KeyOf(id, uuid));
      key !in st.docs ==> r == Err(Errors.DeviceNotFound(NotFoundMessage(key)))
    ensures var key := ToString(KeyOf(id, uuid));
      r.Ok? <==> key in st.docs && Restore(st.docs[key], rules).Ok?
    ensures var key := ToString(KeyOf(id, uuid));
      r.Ok? ==> r.value == DocToPrimitives(st.docs[key])
  {
    var key := ToString(KeyOf(id, uuid));
    var draw := StoredIdentity(st, key);
    assert key in st.docs ==> Storable(key, st.docs[key]) && Restore(st.docs[key], rules) == DocumentToDevice(st.docs[key], rules, draw);
    GetDeviceById(st, id, uuid, rules, draw)
  }

  /** Getting a device by id reports its stored name, brand and state, but the
      id and createdAt of the rebuild, not the stored ones. */
  lemma GetReportsRebuiltIdentity(st: Store, id: string, uuid: string, rules: Rules, draw: Fresh)
    requires GetDeviceById(st, id, uuid, rules, draw).Ok?
    ensures var key := ToString(KeyOf(id, uuid));
      var r := GetDeviceById(st, id, uuid, rules, draw).value;
      && key in st.docs
      && r.name == st.docs[key].name && r.brand == st.docs[key].brand && r.state == st.docs[key].state
      && r.id == draw.uuid && r.createdAt == draw.now
  {
  }

  /** A device created with trimmed name and brand is found again under the id
      the creation reported, with the same name, brand and state. */
  lemma {:induction false} CreateThenGet(st: Store, body: Patch, rules: Rules, draw: Fresh, uuid: string, later: Fresh)
    requires Valid(st) && CreateDevice(st, body, rules, draw).result.Ok?
    requires var p := CreateDevice(st, body, rules, draw).result.value;
      IsTrimmed(p.name) && IsTrimmed(p.brand) && draw.uuid != ""
    ensures var s := CreateDevice(st, body, rules, draw);
      var got := GetDeviceById(s.store, s.result.value.id, uuid, rules, later);
      && got.Ok?
      && got.value.name == s.result.value.name && got.value.brand == s.result.value.brand
      && got.value.state == s.result.value.state
  {
    var s := CreateDevice(st, body, rules, draw);
    var p := s.result.value;
    TrimIdentityIff(p.name);
    TrimIdentityIff(p.brand);
    var device := FromPrimitives(body, rules, draw).value;
    assert ToPrimitives(device) == p;
    assert Save(st, device).result.Ok?;
    FindAfterSave(st, device, rules, later);
    assert ToString(KeyOf(p.id, uuid)) == p.id;
  }

  /** A name of blanks passes the entity's truthiness check but is trimmed to
      nothing by the schema, so the create fails in validation at the store. */
  lemma {:induction false} BlankNameFailsAtStore(st: Store, draw: Fresh)
    requires Valid(st) && draw.uuid !in st.docs
    ensures CreateDevice(st, Patch(JUndefined, JStr("   "), JStr("Google"), JStr("available"), JUndefined), AcceptAll, draw).result
         == Err(Errors.Plain(Errors.SchemaValidationError, Errors.Absent))
  {
    var body := Patch(JUndefined, JStr("   "), JStr("Google"), JStr("available"), JUndefined);
    var made := FromPrimitives(body, AcceptAll, draw);
    assert made.Ok?;
    var device := made.value;
    assert ToPrimitives(device).name == "   ";
    BlankRefusedBySchema(ToPrimitives(device));
    assert StoredForm(device) == Err(Errors.Plain(Errors.SchemaValidationError, Errors.Absent));
    assert Save(st, device).result == Err(Errors.Plain(Errors.SchemaValidationError, Errors.Absent));
  }

  lemma {:induction false} BlankRefusedBySchema(p: Prims)
    requires AllSpace(p.name)
    ensures Validate(DraftOf(p)) == Err(Errors.Plain(Errors.SchemaValidationError, Errors.Absent))
  {
    BlankTrimsToEmpty(p.name);
    assert Cast(DraftOf(p)).name == Some([]);
  }
}

=== FILE: text.dfy ===
/** String helpers with the meaning JavaScript gives them: ASCII lower-casing,
    `includes`, decimal rendering of integers, `trim` and UTF-16 length. */
module Text {

  /** `String.prototype.toLowerCase` restricted to ASCII letters. */
  function LowerChar(c: char): (r: char)
    ensures 'A' <= c <= 'Z' ==> r as int == c as int + 32
    ensures !('A' <= c <= 'Z') ==> r == c
  {
    if 'A' <= c <= 'Z' then (c as int + 32) as char else c
  }

  function ToLower(s: string): (r: string)
    ensures |r| == |s|
    ensures forall i :: 0 <= i < |s| ==> r[i] == LowerChar(s[i])
  {
    if s == [] then [] else [LowerChar(s[0])] + ToLower(s[1..])
  }

  /** `s.includes(w)`: some window of `s` spells `w`. */
  predicate Contains(s: string, w: string) {
    exists i | 0 <= i <= |s| - |w| :: OccursAt(s, w, i)
  }

  predicate OccursAt(s: string, w: string, i: int)
    requires 0 <= i <= |s| - |w|
  {
    s[i..i + |w|] == w
  }

  predicate IsDigit(c: char) {
    '0' <= c <= '9'
  }

  predicate AllDigits(s: string) {
    forall i :: 0 <= i < |s| ==> IsDigit(s[i])
  }

  /** A word whose first letter is not a digit never occurs in a string of digits. */
  lemma {:induction false} DigitsContainNoWord(s: string, w: string)
    requires AllDigits(s)
    requires |w| > 0 && !IsDigit(w[0])
    ensures !Contains(s, w)
  {
    forall i | 0 <= i <= |s| - |w|
      ensures !OccursAt(s, w, i)
    {
      assert s[i..i + |w|][0] == s[i];
    }
  }

  function DigitChar(d: nat): (c: char)
    requires d < 10
    ensures IsDigit(c)
  {
    ('0' as int + d) as char
  }

  /** Decimal rendering of a natural number, as `Number.prototype.toString`. */
  function NatToString(n: nat): (r: string)
    ensures |r| > 0
    ensures AllDigits(r)
    decreases n
  {
    if n < 10 then [DigitChar(n)] else NatToString(n / 10) + [DigitChar(n % 10)]
  }

  /** Decimal rendering of an integer, with a leading `-` when negative. */
  function IntToString(n: int): (r: string)
    ensures |r| > 0
    ensures n >= 0 ==> AllDigits(r)
    ensures n < 0 ==> r[0] == '-'
  {
    if n >= 0 then NatToString(n) else "-" + NatToString(-n)
  }

  /** The characters `String.prototype.trim` removes: white space and line
      terminators (section 12.2 and 12.3 of ECMA-262). */
  predicate IsJsSpace(c: char) {
    var n := c as int;
    || (0x09 <= n <= 0x0D) || n == 0x20 || n == 0xA0 || n == 0x1680
    || (0x2000 <= n <= 0x200A) || n == 0x2028 || n == 0x2029 || n == 0x202F
    || n == 0x205F || n == 0x3000 || n == 0xFEFF
  }

  predicate IsTrimmed(s: string) {
    s == [] || (!IsJsSpace(s[0]) && !IsJsSpace(s[|s| - 1]))
  }

  /** The number of white-space characters `s` starts with. */
  function LeadingSpace(s: string): (n: nat)
    ensures n <= |s|
    ensures forall k :: 0 <= k < n ==> IsJsSpace(s[k])
    ensures n < |s| ==> !IsJsSpace(s[n])
  {
    if s == [] || !IsJsSpace(s[0]) then 0
    else
      var m := LeadingSpace(s[1..]);
      assert forall k :: 1 <= k < m + 1 ==> s[k] == s[1..][k - 1];
      m + 1
  }

  function TrimStart(s: string): (r: string)
    ensures r == [] || !IsJsSpace(r[0])
    ensures exists i | 0 <= i <= |s| :: r == s[i..] && forall k :: 0 <= k < i ==> IsJsSpace(s[k])
  {
    s[LeadingSpace(s)..]
  }

  function TrimEnd(s: string): (r: string)
    ensures r == [] || !IsJsSpace(r[|r| - 1])
    ensures exists j | 0 <= j <= |s| :: r == s[..j] && forall k :: j <= k < |s| ==> IsJsSpace(s[k])
  {
    if s == [] then
      assert s == s[..0];
      s
    else if IsJsSpace(s[|s| - 1]) then
      var t := s[..|s| - 1];
      var r := TrimEnd(t);
      assert exists j | 0 <= j <= |s| :: r == s[..j] && forall k :: j <= k < |s| ==> IsJsSpace(s[k]) by {
        var j :| 0 <= j <= |t| && r == t[..j] && forall k :: j <= k < |t| ==> IsJsSpace(t[k]);
        assert r == s[..j];
        forall k | j <= k < |s| ensures IsJsSpace(s[k]) {
          if k < |t| { assert s[k] == t[k]; }
        }
      }
      r
    else
      assert s == s[..|s|];
      s
  }

  /** `String.prototype.trim`. */
  function Trim(s: string): (r: string)
    ensures IsTrimmed(r)
    ensures |r| <= |s|
  {
    var t := TrimStart(s);
    var r := TrimEnd(t);
    assert r == [] || !IsJsSpace(r[0]) by {
      if r != [] {
        var j :| 0 <= j <= |t| && r == t[..j] && forall k :: j <= k < |t| ==> IsJsSpace(t[k]);
        assert r[0] == t[0];
      }
    }
    r
  }

  lemma {:induction false} TrimStartOfTrimmed(s: string)
    requires s == [] || !IsJsSpace(s[0])
    ensures TrimStart(s) == s
  {
  }

  lemma {:induction false} TrimEndOfTrimmed(s: string)
    requires s == [] || !IsJsSpace(s[|s| - 1])
    ensures TrimEnd(s) == s
  {
  }

  /** Trimming changes a string exactly when it starts or ends with white space. */
  lemma {:induction false} TrimIdentityIff(s: string)
    ensures Trim(s) == s <==> IsTrimmed(s)
  {
    if IsTrimmed(s) {
      TrimStartOfTrimmed(s);
      TrimEndOfTrimmed(s);
    }
  }

  lemma TrimIdempotent(s: string)
    ensures Trim(Trim(s)) == Trim(s)
  {
    TrimIdentityIff(Trim(s));
  }

  predicate AllSpace(w: string) {
    forall i :: 0 <= i < |w| ==> IsJsSpace(w[i])
  }

  lemma {:induction false} TrimStartSkipsSpace(w: string, s: string)
    requires AllSpace(w)
    ensures TrimStart(w + s) == TrimStart(s)
  {
    if w != [] {
      assert (w + s)[1..] == w[1..] + s;
      TrimStartSkipsSpace(w[1..], s);
    } else {
      assert w + s == s;
    }
  }

  lemma {:induction false} TrimEndSkipsSpace(s: string, w: string)
    requires AllSpace(w)
    ensures TrimEnd(s + w) == TrimEnd(s)
  {
    if w != [] {
      assert (s + w)[..|s + w| - 1] == s + w[..|w| - 1];
      TrimEndSkipsSpace(s, w[..|w| - 1]);
    } else {
      assert s + w == s;
    }
  }

  /** A string of white space only trims to the empty string. */
  lemma {:induction false} BlankTrimsToEmpty(w: string)
    requires AllSpace(w)
    ensures Trim(w) == []
  {
    assert w + [] == w;
    TrimStartSkipsSpace(w, []);
  }

  /** White space added on both sides of a trimmed string is exactly what
      `trim` takes away again. */
  lemma {:induction false} TrimRemovesPadding(s: string, pad: string)
    requires AllSpace(pad) && IsTrimmed(s)
    ensures Trim(pad + s + pad) == s
  {
    assert pad + s + pad == pad + (s + pad);
    TrimStartSkipsSpace(pad, s + pad);
    if s == [] {
      assert s + pad == pad + [];
      TrimStartSkipsSpace(pad, []);
    } else {
      TrimStartOfTrimmed(s + pad);
      TrimEndSkipsSpace(s, pad);
      TrimEndOfTrimmed(s);
    }
  }

  /** `length` of a JavaScript string: characters outside the Basic
      Multilingual Plane take two UTF-16 code units. */
  function Utf16Length(s: string): (n: nat)
  {
    if s == [] then 0 else (if s[0] as int > 0xFFFF then 2 else 1) + Utf16Length(s[1..])
  }

  /** Counting UTF-16 code units never gives fewer than counting code points. */
  lemma {:induction false} CodePointsAtMostUtf16(s: string)
    ensures |s| <= Utf16Length(s)
  {
    if s != [] {
      CodePointsAtMostUtf16(s[1..]);
    }
  }

  /** On text inside the Basic Multilingual Plane both measures agree. */
  lemma {:induction false} Utf16LengthOfBmp(s: string)
    requires forall i :: 0 <= i < |s| ==> s[i] as int <= 0xFFFF
    ensures Utf16Length(s) == |s|
  {
    if s != [] {
      Utf16LengthOfBmp(s[1..]);
    }
  }
}

=== FILE: values.dfy ===
/** Value objects: the `ValueObject` check chain (defined, then runtime type,
    then validity), `equals` and `toString`; the string and enum families; and
    the concrete `DeviceId`, `DeviceName`, `DeviceBrand` and `DeviceState`. */
module Values {
  import opened Wrappers
  import opened JsValues
  import opened Errors

  /** The concrete value-object classes the entity uses. */
  datatype VoClass = DeviceIdClass | DeviceNameClass | DeviceBrandClass | DeviceStateClass

  /** `this.constructor.name`. */
  function VoClassName(c: VoClass): string {
    match c
    case DeviceIdClass => "DeviceId"
    case DeviceNameClass => "DeviceName"
    case DeviceBrandClass => "DeviceBrand"
    case DeviceStateClass => "DeviceState"
  }

  /** The abstract base a class extends, which fixes its type predicate. */
  datatype Family = StringFamily | EnumFamily

  function FamilyOf(c: VoClass): Family {
    if c == DeviceStateClass then EnumFamily else StringFamily
  }

  /** `isValueTypeCorrect`: strings only for `StringValueObject`, strings or
      numbers for `EnumValueObject`. */
  predicate TypeCorrect(f: Family, v: JsValue) {
    match f
    case StringFamily => v.JStr?
    case EnumFamily => v.JStr? || v.JNum?
  }

  /** The validity checks of `DeviceName` and `DeviceBrand`, whose classes are
      not part of this model: each maps a string to `None` when it is valid and
      to the message of the `ValidationDomainError` it throws otherwise. */
  datatype Rules = Rules(checkName: string -> Option<string>, checkBrand: string -> Option<string>)

  /** Rules that accept every name and brand; they are what a class without
      a validity override of its own is checked against. */
  const AcceptAll := Rules(_ => None, _ => None)

  datatype ValueObject = ValueObject(cls: VoClass, value: JsValue)

  const ValidStates: seq<string> := ["available", "in-use", "inactive"]

  /** `DeviceState.checkValueIsValid`: a string among the three states, else a
      `ValidationDomainError` naming the value. */
  function CheckState(v: JsValue): (r: Option<Thrown>)
    ensures r.None? <==> v.JStr? && v.s in ValidStates
    ensures r.Some? ==> r.value == ValidationError("State: " + JsString(v) + " is not valid.")
  {
    if v.JStr? && v.s in ValidStates then None
    else Some(ValidationError("State: " + JsString(v) + " is not valid."))
  }

  /** `checkValueIsValid` of each class. `DeviceId` keeps the base version,
      which accepts everything. */
  function CheckValid(c: VoClass, v: JsValue, rules: Rules): Option<Thrown> {
    match c
    case DeviceIdClass => None
    case DeviceStateClass => CheckState(v)
    case DeviceNameClass =>
      if !v.JStr? then None
      else (match rules.checkName(v.s) case None => None case Some(m) => Some(ValidationError(m)))
    case DeviceBrandClass =>
      if !v.JStr? then None
      else (match rules.checkBrand(v.s) case None => None case Some(m) => Some(ValidationError(m)))
  }

  const UndefinedValue := NewCustomError(UndefinedDomainValueErrorClass, "Value must be defined", NoOptions)

  function TypeMismatch(v: JsValue): Thrown {
    NewCustomError(DomainValueTypeErrorClass, "Provided value does not match the expected type",
      ErrorOptions(Absent, JObject([Field("value", v)]), None))
  }

  /** `new C(v)` for a value-object class `C`: the three checks in order, the
      first failure thrown. */
  function NewValueObject(c: VoClass, v: JsValue, rules: Rules): (r: Result<ValueObject, Thrown>)
    ensures (v.JUndefined? || v.JNull?) ==> r == Err(UndefinedValue)
    ensures !(v.JUndefined? || v.JNull?) && !TypeCorrect(FamilyOf(c), v) ==> r == Err(TypeMismatch(v))
    ensures r.Ok? ==> r.value == ValueObject(c, v) && TypeCorrect(FamilyOf(c), v) && CheckValid(c, v, rules).None?
    ensures !(v.JUndefined? || v.JNull?) && TypeCorrect(FamilyOf(c), v) && CheckValid(c, v, rules).Some? ==> r == Err(CheckValid(c, v, rules).value)
  {
    if v.JUndefined? || v.JNull? then Err(UndefinedValue)
    else if !TypeCorrect(FamilyOf(c), v) then Err(TypeMismatch(v))
    else match CheckValid(c, v, rules)
      case Some(e) => Err(e)
      case None => Ok(ValueObject(c, v))
  }

  /** `toString`: the stored value's own rendering. */
  function ToString(o: ValueObject): string {
    JsString(o.value)
  }

  /** `equals`: same concrete class name and same rendering of the values. */
  predicate Equals(a: ValueObject, b: ValueObject) {
    VoClassName(b.cls) == VoClassName(a.cls) && JsString(b.value) == JsString(a.value)
  }

  /** `DeviceId`'s constructor: a truthy argument is wrapped as given, anything
      else is replaced by the `uuid` the generator returns. */
  function NewDeviceId(v: JsValue, uuid: string): (r: Result<ValueObject, Thrown>)
    ensures Truthy(v) && v.JStr? ==> r == Ok(ValueObject(DeviceIdClass, v))
    ensures Truthy(v) && !v.JStr? ==> r == Err(TypeMismatch(v))
    ensures !Truthy(v) ==> r == Ok(ValueObject(DeviceIdClass, JStr(uuid)))
  {
    if Truthy(v) then NewValueObject(DeviceIdClass, v, AcceptAll)
    else NewValueObject(DeviceIdClass, JStr(uuid), AcceptAll)
  }

  // ---------------------------------------------------------------------
  // Properties of the check chain

  /** A value that is defined and of the right runtime type is accepted by any
      class that does not override the validity check. */
  lemma DefaultValidityAcceptsAll(v: JsValue, rules: Rules)
    requires !(v.JUndefined? || v.JNull?) && TypeCorrect(StringFamily, v)
    ensures NewValueObject(DeviceIdClass, v, rules) == Ok(ValueObject(DeviceIdClass, v))
  {
  }

  /** The error kind tells which check failed, and the checks run in order. */
  lemma CheckChainOrder(c: VoClass, v: JsValue, rules: Rules)
    ensures var r := NewValueObject(c, v, rules);
      && (r.Err? && r.error.cls == UndefinedDomainValueErrorClass <==> v.JUndefined? || v.JNull?)
      && (r.Err? && r.error.cls == DomainValueTypeErrorClass <==>
            !(v.JUndefined? || v.JNull?) && !TypeCorrect(FamilyOf(c), v))
      && (r.Err? && IsA(r.error.cls, ValidationDomainErrorClass) <==>
            !(v.JUndefined? || v.JNull?) && TypeCorrect(FamilyOf(c), v) && CheckValid(c, v, rules).Some?)
  {
    var r := NewValueObject(c, v, rules);
    if !(v.JUndefined? || v.JNull?) && TypeCorrect(FamilyOf(c), v) && CheckValid(c, v, rules).Some? {
      match c
      case DeviceIdClass =>
      case DeviceStateClass =>
      case DeviceNameClass =>
      case DeviceBrandClass =>
    }
  }

  /** A `DeviceState` is built from exactly the three state strings, compared
      case-sensitively. */
  lemma StateAcceptsExactly(v: JsValue, rules: Rules)
    ensures NewValueObject(DeviceStateClass, v, rules).Ok? <==> v in [JStr("available"), JStr("in-use"), JStr("inactive")]
  {
  }

  /** A number passes the enum type check but is still no valid state. */
  lemma NumericStateRejectedAsInvalid(n: int, rules: Rules)
    ensures NewValueObject(DeviceStateClass, JNum(n), rules)
         == Err(ValidationError("State: " + Text.IntToString(n) + " is not valid."))
  {
  }

  /** Whatever string a value object was built from, `toString` gives it back. */
  lemma StringRoundTrip(c: VoClass, s: string, rules: Rules)
    requires NewValueObject(c, JStr(s), rules).Ok?
    ensures ToString(NewValueObject(c, JStr(s), rules).value) == s
  {
  }

  /** `equals` is an equivalence relation. */
  lemma EqualsIsEquivalence(a: ValueObject, b: ValueObject, c: ValueObject)
    ensures Equals(a, a)
    ensures Equals(a, b) <==> Equals(b, a)
    ensures Equals(a, b) && Equals(b, c) ==> Equals(a, c)
  {
  }

  /** `equals` compares renderings, so an enum value object holding the number
      1 equals one holding the string "1": it is not equality of values. */
  lemma EqualsIsNotValueEquality()
    ensures var a := ValueObject(DeviceStateClass, JNum(1));
      var b := ValueObject(DeviceStateClass, JStr("1"));
      a != b && Equals(a, b)
  {
  }

  /** For two successfully built objects of the string family, `equals` is
      exactly equality: same class and same string. */
  lemma EqualsOnStrings(c1: VoClass, s1: string, c2: VoClass, s2: string, rules: Rules)
    requires NewValueObject(c1, JStr(s1), rules).Ok? && NewValueObject(c2, JStr(s2), rules).Ok?
    ensures Equals(NewValueObject(c1, JStr(s1), rules).value, NewValueObject(c2, JStr(s2), rules).value)
        <==> c1 == c2 && s1 == s2
  {
  }

  /** Two `DeviceId`s built from the same non-empty string are equal, and
      render as that string. */
  lemma DeviceIdsFromSameString(s: string, uuid1: string, uuid2: string)
    requires s != ""
    ensures NewDeviceId(JStr(s), uuid1).Ok? && NewDeviceId(JStr(s), uuid2).Ok?
    ensures Equals(NewDeviceId(JStr(s), uuid1).value, NewDeviceId(JStr(s), uuid2).value)
    ensures ToString(NewDeviceId(JStr(s), uuid1).value) == s
  {
  }

  /** An empty id string never survives: the generated id is used instead. */
  lemma EmptyDeviceIdIsGenerated(uuid: string)
    ensures NewDeviceId(JStr(""), uuid) == Ok(ValueObject(DeviceIdClass, JStr(uuid)))
    ensures NewDeviceId(JUndefined, uuid) == Ok(ValueObject(DeviceIdClass, JStr(uuid)))
  {
  }
}

=== FILE: wrappers.dfy ===
/** Failure-compatible wrappers used throughout the model: a thrown exception
    of the source becomes the `Err` case of a `Result`. */
module Wrappers {

  datatype Option<+T> = None | Some(value: T)

  datatype Result<+T, +E> = Ok(value: T) | Err(error: E) {

    predicate IsFailure() {
      Err?
    }

    function PropagateFailure<U>(): Result<U, E>
      requires Err?
    {
      Err(error)
    }

    function Extract(): T
      requires Ok?
    {
      value
    }
  }
}
